=== FILE: README.md ===
# Automatic MCQ Grader — a Dafny model of its grading core

The Automatic MCQ Grader reads a photographed multiple-choice answer sheet of 50 questions
laid out as 5 columns of 10 rows, finds the option bubble filled on each
question, grades the answers against a marking scheme loaded from a CSV
table, totals the marks and lists what it draws on the sheet. This project
models the deterministic part of that pipeline and proves what it computes:

- `grid.dfy` (`Grid`): the question-box geometry of `extract_question_boxes`
  and `create_grid`: band sizes by integer division, column-major numbering,
  boxes inside the image, pairwise disjoint, covering exactly the banded
  region.
- `raster.dfy` (`Raster`): grayscale images, numpy-style clamped cropping,
  and the final clockwise rotation plus horizontal mirror of
  `warp_perspective`, which is a transpose.
- `bubble.dfy` (`Bubble`): `detect_colored_bubble`: the inverse threshold at
  150, six equal slices, the option 1..5 with the most filled pixels, lowest
  option on ties.
- `extrema.dfy` (`Extrema`): numpy's `argmax` / `argmin` (first occurrence).
- `scheme.dfy` (`Scheme`): `load_marking_scheme`: Python `int()` on decimal
  text, `str.split(',')`, row parsing, and the dict built in row order.
- `grader.dfy` (`Grader`): the verdict rule, `grade` and its running total.
- `annotator.dfy` (`Annotator`): `annotate_image` as the list of marks it
  draws (box, colour, label text and anchor, symbol and anchor).
- `sheet.dfy` (`Sheet`): `process_answer_sheet` and `process_single_sheet`:
  reorient, cut into boxes, read, number 1..50, grade, total, annotate, or
  produce the failure record.
- `corners.dfy` (`Corners`): `reOrder` of the utilities module.
- `wrappers.dfy` (`Wrappers`): `Option` and `Result`.

Exceptions become error values: `int()`'s ValueError is `Scheme.SchemeError`,
the KeyError of `grade` is `Grader.GradeError`, and the caught exception of
`process_single_sheet` is `Sheet.SheetError` inside a `Failed` record.

Behaviour of the code worth knowing:

- A pixel counts as filled when its gray value is at most 150; the inverse
  threshold keeps 150 itself.
- The marking-scheme loader validates nothing: condition tags are stored as
  written, question ids may repeat (the last row wins) and may be any
  integer. Only the fact that every entry has an answer holds, because
  `int('')` fails.
- The reorientation at the end of `warp_perspective` is a transpose
  (`Raster.ReorientIsTranspose`).
- `reOrder` puts corners in the order top-left, top-right, bottom-left,
  bottom-right, while `warp_perspective` names the four points it receives
  top-left, top-right, bottom-right, bottom-left. The pipeline never calls
  `reOrder`, so the two never meet; `Corners.SortedCornersSwapBottom` records
  what would happen if they did.

## Model

| member | source | states |
|---|---|---|
| `Extrema.ArgMax` | grade_mcq.py:61 | the returned index holds a maximal element and every earlier element is strictly smaller (first occurrence on ties) |
| `Extrema.ArgMin` | utils.py:69 | the returned index holds a minimal element and every earlier element is strictly larger |
| `Extrema.FirstMaxUnique` | grade_mcq.py:61 | any index that is a first maximum is the index argmax returns, so the tie-break fully determines the result |
| `Extrema.FirstMinUnique` | utils.py:69 | any index that is a first minimum is the index argmin returns |
| `Grid.BoxesOfColumns` | grade_mcq.py:46-51 | the column-by-column enumeration yields exactly cols * rows boxes, box k being the cell in column k / rows and row k % rows |
| `Grid.QuestionBoxes` | grade_mcq.py:40-53 | an image yields cols * rows boxes; box k is the cell of column k / rows and row k % rows, with band sizes width // cols and height // rows |
| `Grid.BoxAt` | grade_mcq.py:42-51 | box k of an image is the cell of column k / rows and row k % rows with band sizes width / cols and height / rows |
| `Grid.BoxesInsideImage` | grade_mcq.py:42-50 | every box is exactly width / cols wide and height / rows tall and lies inside the image |
| `Grid.BoxMembership` | grade_mcq.py:48-50 | a point lies in box k exactly when the bands are non-empty, the point is in the banded region and k is the column-major index of the point's bands |
| `Grid.BoxesDisjoint` | grade_mcq.py:48-50 | no point lies in two different boxes |
| `Grid.BoxesCover` | grade_mcq.py:42-50 | a point lies in some box exactly when it is in [0, cols * bw) x [0, rows * bh); the remainder strips belong to no box |
| `Grid.CreateGrid` | grade_mcq.py:34-38 | one row of cells per question and one cell per option; cell (i, j) has its top-left corner at (j * cw, i * ch) and is cw wide and ch tall, for cw = width // options and ch = height // questions |
| `Grid.GridAgreesWithBoxes` | grade_mcq.py:34-38 | cell (i, j) of the row-major grid is question box j * rows + i |
| `Raster.Clamp` | grade_mcq.py:50 | an effective slice bound is at most the size and at most the bound, and equals one of them |
| `Raster.Crop` | grade_mcq.py:50 | the crop is a well-formed image no larger than the original whose pixel (r, c) is the original pixel (y0 + r, x0 + c) |
| `Raster.CropInsideBox` | grade_mcq.py:50 | a box inside the image is cut out at exactly its own width and height |
| `Raster.RotateClockwise` | grade_mcq.py:32 | width and height swap, and pixel (r, c) of the result is input pixel (height - 1 - c, r): the left column read bottom to top becomes the top row |
| `Raster.FlipHorizontal` | grade_mcq.py:32 | the size is kept and pixel (r, c) of the result is input pixel (r, width - 1 - c) |
| `Raster.FlipInvolution` | grade_mcq.py:32 | mirroring twice gives back the image |
| `Raster.ReorientIsTranspose` | grade_mcq.py:32 | a clockwise quarter turn followed by a horizontal flip equals the transpose |
| `Raster.TransposeInvolution` | grade_mcq.py:32 | transposing twice gives back the image |
| `Bubble.InvBinary` | grade_mcq.py:58 | the mask value is 0 or 255, and 255 exactly when the gray value is at most 150 |
| `Bubble.BubbleWidth` | grade_mcq.py:59 | six slices of the bubble width fit in the box and seven would not |
| `Bubble.FilledInColumns` | grade_mcq.py:60 | the filled count of a column band is at most the number of rows times the band width |
| `Bubble.OptionFill` | grade_mcq.py:60 | the filled count of one option slice is at most the box height times the bubble width |
| `Bubble.LightColumnsEmpty` | grade_mcq.py:60 | columns with no pixel at or below 150 count no filled pixel |
| `Bubble.DarkColumnsFilled` | grade_mcq.py:60 | non-empty columns that are dark in every row count at least one filled pixel |
| `Bubble.DetectBubble` | grade_mcq.py:56-61 | the option is in 1..5, its slice has the greatest filled count of the five, and every lower option has a strictly smaller count |
| `Bubble.LabelSliceIgnored` | grade_mcq.py:59-61 | two boxes of the same size that agree on columns [w, 6w) are read as the same option: slice 0 and the columns past 6w never matter |
| `Bubble.BlankReadsAsOne` | grade_mcq.py:58-61 | a box with no pixel at or below 150 is read as option 1 |
| `Bubble.NarrowReadsAsOne` | grade_mcq.py:59-61 | a box 1 to 5 pixels wide has empty slices and is read as option 1 |
| `Bubble.SingleDarkSlice` | grade_mcq.py:58-61 | a box whose option-k slice is dark throughout while the other option slices are light is read as option k |
| `Scheme.ParseInt` | grade_mcq.py:74 | accepted text is non-empty once stripped, and denotes a negative number exactly when it starts with a minus sign followed by digits that are not all 0 |
| `Scheme.DigitsZero` | grade_mcq.py:74 | a digit run denotes zero exactly when every digit is 0 |
| `Scheme.ParseShowPadded` | grade_mcq.py:74 | `int()` of the decimal text of n surrounded by whitespace is n (for any number of digits; see the digit limit under Left out) |
| `Scheme.BlankIsNotInteger` | grade_mcq.py:74 | `int()` rejects empty or blank text |
| `Scheme.Split` | grade_mcq.py:74 | splitting yields at least one field, no field holds the separator, and joining the fields with it gives the text back |
| `Scheme.SplitJoin` | grade_mcq.py:74 | splitting the join of separator-free fields gives the fields back |
| `Scheme.SplitNoSeparator` | grade_mcq.py:74 | text without the separator splits into itself alone |
| `Scheme.ParseAnswers` | grade_mcq.py:74 | answer fields convert exactly when every field is an integer, to their values in order; otherwise the first rejected field is reported |
| `Scheme.ParseRow` | grade_mcq.py:74 | an accepted row has at least one answer and keeps its condition verbatim; a rejected row reports its own index |
| `Scheme.ParseRowMeaning` | grade_mcq.py:74 | a row is accepted exactly when its id and all its comma-separated answer fields are integers, and then maps the id to those values in order |
| `Scheme.EmptyAnswerRejected` | grade_mcq.py:74 | a row with an empty or blank answer column is rejected |
| `Scheme.BuildScheme` | grade_mcq.py:74 | building succeeds exactly when every row parsed, and otherwise reports the first failed row |
| `Scheme.LoadScheme` | grade_mcq.py:71-74 | loading succeeds exactly when every row parses, and otherwise fails with the error of the first rejected row |
| `Scheme.LoadedKeys` | grade_mcq.py:74 | the question ids of the loaded scheme are exactly the ids of the rows |
| `Scheme.LastRowWins` | grade_mcq.py:74 | a question's entry is the one parsed from the last row carrying its id |
| `Scheme.LoadedEntries` | grade_mcq.py:74 | every loaded entry has at least one answer and the condition text of some row with that id |
| `Grader.SingletonAnswers` | grade_mcq.py:84 | `set(correct_answers) == {detected}` holds exactly when the list is non-empty and every entry equals the detected option |
| `Grader.IsCorrect` | grade_mcq.py:84 | under "-" and "Any" correct means some accepted answer equals the detected option; under any other tag the list must be non-empty with every entry equal to it (app.py:96 uses the same rule) |
| `Grader.MembershipRule` | grade_mcq.py:84 | under "-" and "Any" an answer is correct exactly when it equals one of the accepted answers |
| `Grader.ExactRule` | grade_mcq.py:84 | under any other tag an answer is correct exactly when the accepted list is non-empty and every accepted answer equals it |
| `Grader.AllWithTwoAnswersNeverCorrect` | grade_mcq.py:84 | a non-membership tag with two different accepted answers is never satisfied |
| `Grader.Grade` | grade_mcq.py:76-89 | grading succeeds exactly when every detected question is in the scheme, yielding one verdict per answer in order with the shared rule; otherwise it fails on a missing question all of whose predecessors are present |
| `Grader.FirstUnknownQuestion` | grade_mcq.py:79-82 | when the first k questions are present and question k is not, grading fails with exactly question k |
| `Grader.Score` | grade_mcq.py:85-86 | the total never exceeds the number of verdicts |
| `Grader.ScoreCountsCorrect` | grade_mcq.py:85-86 | the total is the number of positions holding a correct verdict |
| `Grader.ScoreExtremes` | grade_mcq.py:85-86 | the total is full exactly when every verdict is correct and zero exactly when none is |
| `Grader.ScoreAppend` | grade_mcq.py:85-86 | totals of consecutive runs of verdicts add up |
| `Grader.GradeSheet` | grade_mcq.py:77-87 | the loop produces the verdicts of `Grade`, or its error, and its running total is the number of correct verdicts |
| `Annotator.Lookup` | app.py:92-94 | a question in the scheme uses its entry; a missing one gets no answers under the tag "-" |
| `Annotator.Label` | app.py:103 | the label holds one colon, splitting it into "Q" followed by the question number and a space followed by the option |
| `Annotator.MarkBox` | app.py:99-110 | the mark is green with a check mark exactly when correct and red with a cross exactly when not, on the given box with the question label |
| `Annotator.Annotate` | app.py:67-112 | one mark per detected answer up to the 50 boxes; mark k is drawn on question box k of the same image size, carries answer k's label, and is green exactly when the shared rule accepts answer k |
| `Annotator.AnnotationAgreesWithGrade` | app.py:96 | whenever grading succeeds, each mark is green exactly when the verdict of grade for the same answer is correct |
| `Annotator.UnknownQuestionMarkedWrong` | app.py:92-96 | a detected question missing from the scheme is drawn red with a cross instead of raising |
| `Annotator.AnchorsInsideBox` | app.py:104-109 | on a box at least 30 wide and 26 tall, both text anchors lie inside the box |
| `Annotator.LabelRoundTrip` | app.py:103 | the label splits at its colon into "Q" plus text that parses to the question number, and text that parses to the option |
| `Sheet.Reorient` | grade_mcq.py:32 | the reoriented sheet swaps width and height and its pixel (r, c) is warped pixel (c, r) |
| `Sheet.ExtractBoxes` | grade_mcq.py:40-53 | 50 well-formed box images of band size, which hold pixels exactly when the sheet is at least 5 wide and 10 tall |
| `Sheet.BoxPixel` | grade_mcq.py:46-50 | pixel (r, c) of box k is the sheet pixel offset by (r, c) from the top-left of column k / 10, row k % 10 |
| `Sheet.DetectAnswers` | grade_mcq.py:63-69 | 50 answers; answer k is question k + 1 with the option, in 1..5, read from box k |
| `Sheet.NumberedGradeSucceeds` | app.py:127-134 | grading answers numbered 1..50 succeeds exactly when the scheme has every question 1..50 |
| `Sheet.NumberedGradeFailure` | app.py:127-134 | otherwise it fails on the lowest question number the scheme lacks |
| `Sheet.NumberedVerdicts` | app.py:127-134 | verdict k judges question k + 1 against its scheme entry |
| `Sheet.MarksFollowVerdicts` | app.py:134-138 | every drawn mark is green exactly when the verdict at the same position is correct |
| `Sheet.GradeAnswers` | app.py:134-148 | a graded record keeps the answers, has 50 verdicts and 50 marks that agree, and a total equal to the number of correct verdicts; a failed one names the lowest missing question |
| `Sheet.ProcessSheet` | app.py:114-154 | the record keeps the file name; it is graded exactly when the warped sheet exists, is large enough and the scheme covers questions 1..50, and then holds the answers read from the reoriented sheet, 50 verdicts where verdict k judges question k + 1 against its entry, 50 marks green exactly when the verdict is correct, and a total equal to the number of correct verdicts; otherwise it carries the warp error, the empty-box error or the grading error |
| `Sheet.UnmarkedSheetReadsAllOnes` | app.py:124-128 | a sheet with no dark pixel is read as option 1 on every question |
| `Corners.ReOrder` | utils.py:63-75 | each output slot is an input point: the first of least x + y, of least y - x, of greatest y - x and of greatest x + y |
| `Corners.ReOrderRectangle` | utils.py:69-73 | the four corners of an axis-parallel rectangle in any order come out top-left, top-right, bottom-left, bottom-right |
| `Corners.ReOrderMayRepeat` | utils.py:69-73 | on every input whose sums rise strictly from the first point to the last and whose differences order the points first, third, fourth, second (the third strictly above the first, the second strictly above the fourth), the output is first, first, second, fourth point and the third is dropped |
| `Corners.SharedCornerDropsPoint` | utils.py:69-73 | for four distinct points whose first least-sum point is also their first least-difference point, that point fills the first two slots and some input point is missing from the output |
| `Corners.SortedCornersSwapBottom` | grade_mcq.py:26 | handed sorted rectangle corners, the rectifier's bottom-right is the true bottom-left and vice versa |

## Left out

- Decoding the upload, the corner search (`find_sheet_corners`, `rectContour`,
  `getCornerPoints`) and the floating-point part of `warp_perspective`
  (norms, perspective transform): they are OpenCV calls on floats. The model
  takes their outcome as input: the warped image, or the reason none exists.
- The BGR-to-gray conversion: it works pixel by pixel, so it commutes with
  cropping, rotating and flipping; the model works on the gray image
  throughout. Only its refusal of empty input is kept, as the `NonEmpty`
  requirement of `Bubble.DetectBubble` and the `EmptyQuestionBox` error.
- Painting rectangles and text into the image: the annotator yields the list
  of marks instead of pixels.
- The division of every slice count by the box's pixel total: all five counts
  share the divisor, so the winning option is the same.
- Scheme.ParseInt: Python's `int()` also accepts underscores between digits
  and non-ASCII digits and whitespace; the model accepts ASCII decimal text
  only.
- Scheme.ParseInt: Python 3.11 and later, and the security releases of
  earlier versions, refuse decimal text longer than 4300 digits by default
  (ValueError); the model accepts digit runs of any length, so a row with such
  a field loads in the model and fails in the program, and
  `Scheme.ParseShowPadded` holds in the program only for n of at most 4300
  digits.
- The CSV reader: rows reach the loader already split into their three
  columns.
- Error message texts (`str(e)`): errors are values that name their cause.
- Corners.ReOrder: the points arrive as 32-bit integers. The sums x + y are
  taken in the platform integer (64 bits on common platforms), but the
  differences y - x from `np.diff` stay 32-bit and can wrap; the model uses
  unbounded integers throughout.
- Zero columns or rows for the grid: the source's defaults are 5 and 10, and
  zero would raise ZeroDivisionError; `Grid.QuestionBoxes` requires positive
  counts.
- The Streamlit interface, session state, ZIP and CSV export, the percentage
  shown for a sheet, the command-line entry points, `print` calls, the image
  stacking helper, the test script and packaging.

=== FILE: annotator.dfy ===
/** The sheet annotator (annotate_image), modelled as the list of marks it
    draws rather than the pixels it paints.

    The annotator recomputes the question boxes of the rectified sheet, pairs
    the k-th detected answer with the k-th box, and judges it with the
    rule of grade. A question the scheme lacks is judged against an empty
    answer list under the tag "-", so it is marked wrong instead of aborting.
    Detected answers past the last box are not drawn. */
module Annotator {
  import opened Wrappers
  import opened Grid
  import opened Scheme
  import opened Grader

  /** An OpenCV colour, channels in blue, green, red order. */
  datatype Color = Color(blue: int, green: int, red: int)

  const Green: Color := Color(0, 255, 0)
  const Red: Color := Color(0, 0, 255)
  const CheckMark: string := "✓"
  const Cross: string := "✗"

  /** Offsets of the two text anchors from the box corners. */
  const LabelInset: int := 5
  const TextDrop: int := 25
  const SymbolInset: int := 30

  /** Everything drawn for one question: the box outline in `color`, the
      label text at `textAt`, and the verdict symbol at `symbolAt`. */
  datatype Mark = Mark(
    box: Rect,
    color: Color,
    text: string,
    textAt: Point,
    symbol: string,
    symbolAt: Point)

  /** `marking_scheme.get(q_no, {})` followed by the defaults `[]` for the
      answers and `'-'` for the condition. */
  function Lookup(scheme: MarkingScheme, qNo: int): (entry: Entry)
    ensures qNo in scheme ==> entry == scheme[qNo]
    ensures qNo !in scheme ==> entry == Entry([], "-")
  {
    if qNo in scheme then scheme[qNo] else Entry([], "-")
  }

  /** The label `f"Q{q_no}: {detected_answer}"`: its one colon separates the
      question part from the option part. */
  function Label(d: Detected): (text: string)
    ensures Split(text, ':') == ["Q" + Show(d.qNo), " " + Show(d.option)]
  {
    var head, tail := "Q" + Show(d.qNo), " " + Show(d.option);
    ShowHasNoColon(d.qNo);
    ShowHasNoColon(d.option);
    assert Join([head, tail], ':') == head + ":" + tail;
    SplitJoin([head, tail], ':');
    assert head + ":" + tail == "Q" + Show(d.qNo) + ": " + Show(d.option);
    "Q" + Show(d.qNo) + ": " + Show(d.option)
  }

  /** The marks of one box: colour and symbol follow the verdict, the label
      sits just inside the top-left corner and the symbol near the top-right. */
  function MarkBox(box: Rect, d: Detected, correct: bool): (m: Mark)
    ensures m.box == box && m.text == Label(d)
    ensures m.color == Green <==> correct
    ensures m.color == Red <==> !correct
    ensures m.symbol == CheckMark <==> correct
    ensures m.symbol == Cross <==> !correct
  {
    var color := if correct then Green else Red;
    Mark(box, color, Label(d),
      Point(box.topLeft.x + LabelInset, box.topLeft.y + TextDrop),
      if correct then CheckMark else Cross,
      Point(box.bottomRight.x - SymbolInset, box.topLeft.y + TextDrop))
  }

  /** annotate_image for a sheet of the given size: one mark per detected
      answer, in order, for at most as many answers as there are boxes. */
  function Annotate(width: nat, height: nat, detected: seq<Detected>, scheme: MarkingScheme): (marks: seq<Mark>)
    ensures |marks| == if |detected| < BoxCount then |detected| else BoxCount
    ensures forall k :: 0 <= k < |marks| ==>
              && marks[k].box == QuestionBoxes(width, height, NumColumns, NumRows)[k]
              && marks[k].text == Label(detected[k])
              && (marks[k].color == Green <==> IsCorrect(Lookup(scheme, detected[k].qNo), detected[k].option))
  {
    var boxes := QuestionBoxes(width, height, NumColumns, NumRows);
    var n := if |detected| < |boxes| then |detected| else |boxes|;
    seq(n, k requires 0 <= k < n =>
      MarkBox(boxes[k], detected[k], IsCorrect(Lookup(scheme, detected[k].qNo), detected[k].option)))
  }

  /** Whenever grading succeeds, every drawn mark is green exactly when the
      verdict of grade for the same detected answer is correct. */
  lemma AnnotationAgreesWithGrade(width: nat, height: nat, detected: seq<Detected>, scheme: MarkingScheme, k: nat)
    requires Grade(detected, scheme).Success?
    requires k < |Annotate(width, height, detected, scheme)|
    ensures Grade(detected, scheme).value[k].question == detected[k].qNo
    ensures (Annotate(width, height, detected, scheme)[k].color == Green
             <==> Grade(detected, scheme).value[k].correct)
  {
  }

  /** A detected question the scheme lacks is drawn red with a cross. */
  lemma UnknownQuestionMarkedWrong(width: nat, height: nat, detected: seq<Detected>, scheme: MarkingScheme, k: nat)
    requires k < |Annotate(width, height, detected, scheme)|
    requires detected[k].qNo !in scheme
    ensures Annotate(width, height, detected, scheme)[k].color == Red
    ensures Annotate(width, height, detected, scheme)[k].symbol == Cross
  {
    var entry := Lookup(scheme, detected[k].qNo);
    MembershipRule(entry, detected[k].option);
  }

  /** Both text anchors lie inside the box once the box is at least 30 pixels
      wide and 26 pixels tall. */
  lemma AnchorsInsideBox(box: Rect, d: Detected, correct: bool)
    requires box.Width() >= SymbolInset && box.Height() > TextDrop
    ensures box.Contains(MarkBox(box, d, correct).textAt)
    ensures box.Contains(MarkBox(box, d, correct).symbolAt)
  {
  }

  /** A rendered integer holds no colon. */
  lemma ShowHasNoColon(n: int)
    ensures ':' !in Show(n)
  {
    var digits := ShowNat(if n < 0 then -n else n);
    assert forall i :: 0 <= i < |digits| ==> IsDigit(digits[i]);
    assert ':' !in digits;
  }

  /** The label reads back: split at the colon, the text after "Q" parses to
      the question number and the rest parses to the detected option. */
  lemma LabelRoundTrip(d: Detected)
    ensures |Split(Label(d), ':')| == 2
    ensures |Split(Label(d), ':')[0]| > 0 && Split(Label(d), ':')[0][0] == 'Q'
    ensures ParseInt(Split(Label(d), ':')[0][1..]) == Some(d.qNo)
    ensures ParseInt(Split(Label(d), ':')[1]) == Some(d.option)
  {
    var head, tail := "Q" + Show(d.qNo), " " + Show(d.option);
    assert head[1..] == "" + Show(d.qNo) + "";
    ParseShowPadded("", d.qNo, "");
    assert tail == " " + Show(d.option) + "";
    ParseShowPadded(" ", d.option, "");
  }
}

=== FILE: bubble.dfy ===
/** The bubble classifier of one question box (detect_colored_bubble).

    The grayscale box is binarised with an inverse threshold at 150, so a
    pixel is "filled" when its intensity is at most 150. The box is cut into
    six slices of width `width / 6`; slice 0 is the question label and slices
    1..5 are options 1..5. The option whose slice holds the most filled
    pixels wins, the lowest option on ties. The source divides every count
    by the same pixel total before comparing, so comparing the counts
    themselves selects the same option. The box must hold at least one
    pixel: the grayscale conversion that precedes the count rejects an empty
    box. */
module Bubble {
  import opened Raster
  import Extrema

  const Threshold: int := 150
  const MaxValue: Byte := 255
  /** Equal-width slices a box is cut into; slice 0 carries no option. */
  const SliceCount: nat := 6
  const OptionCount: nat := 5

  /** cv2.threshold with THRESH_BINARY_INV, threshold 150 and maximum 255. */
  function InvBinary(v: Byte): (m: Byte)
    ensures m == 0 || m == MaxValue
    ensures m == MaxValue <==> v <= Threshold
  {
    if v > Threshold then 0 else MaxValue
  }

  /** The number of pixels of `row` that the threshold marks as filled. */
  function FilledInRow(row: seq<Byte>): (n: nat)
    ensures n <= |row|
  {
    if |row| == 0 then 0
    else FilledInRow(row[..|row| - 1]) + (if InvBinary(row[|row| - 1]) == MaxValue then 1 else 0)
  }

  /** The number of filled pixels in columns lo..hi of every row: numpy's
      `sum(mask[:, lo:hi] == 255)`. */
  function FilledInColumns(px: seq<seq<Byte>>, lo: nat, hi: nat): (n: nat)
    requires lo <= hi
    requires forall r :: 0 <= r < |px| ==> hi <= |px[r]|
    ensures n <= |px| * (hi - lo)
  {
    if |px| == 0 then 0
    else
      var before := FilledInColumns(px[..|px| - 1], lo, hi);
      assert (|px| - 1) * (hi - lo) + (hi - lo) == |px| * (hi - lo);
      before + FilledInRow(px[|px| - 1][lo..hi])
  }

  /** Width of one bubble slice. */
  function BubbleWidth(cell: Image): (w: nat)
    ensures SliceCount * w <= cell.width < SliceCount * (w + 1)
  {
    cell.width / SliceCount
  }

  /** The six slices fit in the box. */
  lemma SlicesFit(cell: Image)
    ensures SliceCount * BubbleWidth(cell) <= cell.width
  {
  }

  /** The slice of an option lies between slice 0 and the end of slice 5. */
  lemma OptionSliceInside(o: nat, w: nat)
    requires 1 <= o <= OptionCount
    ensures w <= o * w && (o + 1) * w <= SliceCount * w
  {
  }

  /** The filled count of the slice of option `option`, columns
      [option * w, (option + 1) * w) for slice width w. */
  function OptionFill(cell: Image, option: nat): (fill: nat)
    requires WellFormed(cell)
    requires 1 <= option <= OptionCount
    ensures fill <= cell.height * BubbleWidth(cell)
  {
    var w := BubbleWidth(cell);
    SlicesFit(cell);
    OptionSliceInside(option, w);
    assert (option + 1) * w - option * w == w;
    FilledInColumns(cell.px, option * w, (option + 1) * w)
  }

  /** The five option counts, option 1 first. */
  function OptionFills(cell: Image): (fills: seq<int>)
    requires WellFormed(cell)
    ensures |fills| == OptionCount
    ensures forall i :: 0 <= i < OptionCount ==> fills[i] == OptionFill(cell, i + 1)
  {
    seq(OptionCount, i requires 0 <= i < OptionCount => OptionFill(cell, i + 1))
  }

  /** detect_colored_bubble on the grayscale box: the option, 1..5, whose
      slice is filled most, the lowest such option on ties. */
  function DetectBubble(cell: Image): (option: nat)
    requires WellFormed(cell) && NonEmpty(cell)
    ensures 1 <= option <= OptionCount
    ensures forall o :: 1 <= o <= OptionCount ==> OptionFill(cell, o) <= OptionFill(cell, option)
    ensures forall o :: 1 <= o < option ==> OptionFill(cell, o) < OptionFill(cell, option)
  {
    var fills := OptionFills(cell);
    var k := Extrema.ArgMax(fills);
    assert forall o :: 1 <= o <= OptionCount ==> fills[o - 1] == OptionFill(cell, o);
    k + 1
  }

  /** Two boxes that agree on the same rows of columns lo..hi have the same
      filled count there. */
  lemma {:induction false} FilledInColumnsLocal(a: seq<seq<Byte>>, b: seq<seq<Byte>>, lo: nat, hi: nat)
    requires lo <= hi
    requires |a| == |b|
    requires forall r :: 0 <= r < |a| ==> hi <= |a[r]| && hi <= |b[r]|
    requires forall r, c :: 0 <= r < |a| && lo <= c < hi ==> a[r][c] == b[r][c]
    ensures FilledInColumns(a, lo, hi) == FilledInColumns(b, lo, hi)
  {
    if |a| > 0 {
      var n := |a| - 1;
      FilledInColumnsLocal(a[..n], b[..n], lo, hi);
      assert a[n][lo..hi] == b[n][lo..hi];
    }
  }

  /** Slice 0 (columns [0, w)) and every column at or past 6 * w never
      influence the detected option. */
  lemma LabelSliceIgnored(a: Image, b: Image)
    requires WellFormed(a) && WellFormed(b) && NonEmpty(a)
    requires a.height == b.height && a.width == b.width
    requires forall r, c :: 0 <= r < a.height && BubbleWidth(a) <= c < SliceCount * BubbleWidth(a) ==>
      a.px[r][c] == b.px[r][c]
    ensures DetectBubble(a) == DetectBubble(b)
  {
    var w := BubbleWidth(a);
    forall o | 1 <= o <= OptionCount
      ensures OptionFill(a, o) == OptionFill(b, o)
    {
      SlicesFit(a);
      OptionSliceInside(o, w);
      FilledInColumnsLocal(a.px, b.px, o * w, (o + 1) * w);
    }
    assert OptionFills(a) == OptionFills(b);
  }

  /** A row with no pixel at or below the threshold has no filled pixel. */
  lemma {:induction false} LightRowEmpty(row: seq<Byte>)
    requires forall c :: 0 <= c < |row| ==> row[c] > Threshold
    ensures FilledInRow(row) == 0
  {
    if |row| > 0 {
      LightRowEmpty(row[..|row| - 1]);
    }
  }

  /** A row whose pixels are all at or below the threshold is filled throughout. */
  lemma {:induction false} DarkRowFull(row: seq<Byte>)
    requires forall c :: 0 <= c < |row| ==> row[c] <= Threshold
    ensures FilledInRow(row) == |row|
  {
    if |row| > 0 {
      DarkRowFull(row[..|row| - 1]);
    }
  }

  /** Columns lo..hi that are light in every row have no filled pixel. */
  lemma {:induction false} LightColumnsEmpty(px: seq<seq<Byte>>, lo: nat, hi: nat)
    requires lo <= hi
    requires forall r :: 0 <= r < |px| ==> hi <= |px[r]|
    requires forall r, c :: 0 <= r < |px| && lo <= c < hi ==> px[r][c] > Threshold
    ensures FilledInColumns(px, lo, hi) == 0
  {
    if |px| > 0 {
      var n := |px| - 1;
      LightColumnsEmpty(px[..n], lo, hi);
      LightRowEmpty(px[n][lo..hi]);
    }
  }

  /** Non-empty columns lo..hi that are dark in every one of at least one row
      have a filled pixel. */
  lemma DarkColumnsFilled(px: seq<seq<Byte>>, lo: nat, hi: nat)
    requires lo < hi && |px| > 0
    requires forall r :: 0 <= r < |px| ==> hi <= |px[r]|
    requires forall r, c :: 0 <= r < |px| && lo <= c < hi ==> px[r][c] <= Threshold
    ensures FilledInColumns(px, lo, hi) > 0
  {
    DarkRowFull(px[|px| - 1][lo..hi]);
  }

  /** A box with no pixel at or below the threshold is read as option 1:
      there is no "blank" answer. */
  lemma BlankReadsAsOne(cell: Image)
    requires WellFormed(cell) && NonEmpty(cell)
    requires forall r, c :: 0 <= r < cell.height && 0 <= c < cell.width ==> cell.px[r][c] > Threshold
    ensures DetectBubble(cell) == 1
  {
    var w := BubbleWidth(cell);
    SlicesFit(cell);
    forall o | 1 <= o <= OptionCount
      ensures OptionFill(cell, o) == 0
    {
      OptionSliceInside(o, w);
      LightColumnsEmpty(cell.px, o * w, (o + 1) * w);
    }
    var d := DetectBubble(cell);
    assert OptionFill(cell, 1) == 0 && OptionFill(cell, d) == 0;
  }

  /** A box one to five pixels wide has empty slices and is read as option 1. */
  lemma NarrowReadsAsOne(cell: Image)
    requires WellFormed(cell) && NonEmpty(cell)
    requires cell.width < SliceCount
    ensures DetectBubble(cell) == 1
  {
    assert BubbleWidth(cell) == 0;
    forall o | 1 <= o <= OptionCount
      ensures OptionFill(cell, o) == 0
    {
      LightColumnsEmpty(cell.px, 0, 0);
    }
    var d := DetectBubble(cell);
    assert OptionFill(cell, 1) == 0 && OptionFill(cell, d) == 0;
  }

  /** Every pixel of the slice of option `o` is at or below the threshold. */
  ghost predicate SliceDark(cell: Image, o: nat)
    requires WellFormed(cell)
  {
    forall r, c :: (0 <= r < cell.height && o * BubbleWidth(cell) <= c < (o + 1) * BubbleWidth(cell)
                    && c < cell.width) ==> cell.px[r][c] <= Threshold
  }

  /** Every pixel of the slice of option `o` is above the threshold. */
  ghost predicate SliceLight(cell: Image, o: nat)
    requires WellFormed(cell)
  {
    forall r, c :: (0 <= r < cell.height && o * BubbleWidth(cell) <= c < (o + 1) * BubbleWidth(cell)
                    && c < cell.width) ==> cell.px[r][c] > Threshold
  }

  /** A light option slice has no filled pixel. */
  lemma LightSliceEmpty(cell: Image, o: nat)
    requires WellFormed(cell)
    requires 1 <= o <= OptionCount
    requires SliceLight(cell, o)
    ensures OptionFill(cell, o) == 0
  {
    var w := BubbleWidth(cell);
    SlicesFit(cell);
    OptionSliceInside(o, w);
    LightColumnsEmpty(cell.px, o * w, (o + 1) * w);
  }

  /** A dark, non-empty option slice has a filled pixel. */
  lemma DarkSliceFilled(cell: Image, o: nat)
    requires WellFormed(cell)
    requires 1 <= o <= OptionCount
    requires cell.height > 0 && BubbleWidth(cell) > 0
    requires SliceDark(cell, o)
    ensures OptionFill(cell, o) > 0
  {
    var w := BubbleWidth(cell);
    SlicesFit(cell);
    OptionSliceInside(o, w);
    assert o * w < (o + 1) * w;
    DarkColumnsFilled(cell.px, o * w, (o + 1) * w);
  }

  /** A box whose option-k slice is dark throughout while every other option
      slice is light is read as option k. */
  lemma SingleDarkSlice(cell: Image, k: nat)
    requires WellFormed(cell) && NonEmpty(cell)
    requires 1 <= k <= OptionCount
    requires cell.height > 0 && BubbleWidth(cell) > 0
    requires SliceDark(cell, k)
    requires forall o :: 1 <= o <= OptionCount && o != k ==> SliceLight(cell, o)
    ensures DetectBubble(cell) == k
  {
    DarkSliceFilled(cell, k);
    var d := DetectBubble(cell);
    if d != k {
      LightSliceEmpty(cell, d);
    }
  }
}

=== FILE: corners.dfy ===
/** The corner sorter of the utilities module (reOrder).

    Four corner points are put in the order top-left, top-right, bottom-left,
    bottom-right, in image coordinates where y grows downwards: slot 0 takes
    the point of least x + y, slot 3 the point of greatest x + y, slot 1 the
    point of least y - x and slot 2 the point of greatest y - x. Ties go to
    the point listed first. Nothing prevents one point from filling two slots
    or a point from being left out. */
module Corners {
  import opened Grid
  import Extrema

  /** Four points, in the order they are listed. */
  datatype Quad = Quad(p0: Point, p1: Point, p2: Point, p3: Point)

  function Points(q: Quad): (ps: seq<Point>)
    ensures |ps| == 4
  {
    [q.p0, q.p1, q.p2, q.p3]
  }

  function Sum(p: Point): int {
    p.x + p.y
  }

  /** `np.diff` along a point's coordinates: y - x. */
  function Diff(p: Point): int {
    p.y - p.x
  }

  function Sums(q: Quad): (s: seq<int>)
    ensures |s| == 4 && forall i :: 0 <= i < 4 ==> s[i] == Sum(Points(q)[i])
  {
    seq(4, i requires 0 <= i < 4 => Sum(Points(q)[i]))
  }

  function Diffs(q: Quad): (s: seq<int>)
    ensures |s| == 4 && forall i :: 0 <= i < 4 ==> s[i] == Diff(Points(q)[i])
  {
    seq(4, i requires 0 <= i < 4 => Diff(Points(q)[i]))
  }

  /** reOrder: the first point of least sum, the first of least difference,
      the first of greatest difference and the first of greatest sum. */
  function ReOrder(q: Quad): (r: Quad)
    ensures exists i :: Extrema.IsFirstMin(Sums(q), i) && r.p0 == Points(q)[i]
    ensures exists i :: Extrema.IsFirstMin(Diffs(q), i) && r.p1 == Points(q)[i]
    ensures exists i :: Extrema.IsFirstMax(Diffs(q), i) && r.p2 == Points(q)[i]
    ensures exists i :: Extrema.IsFirstMax(Sums(q), i) && r.p3 == Points(q)[i]
  {
    var ps := Points(q);
    Quad(ps[Extrema.ArgMin(Sums(q))], ps[Extrema.ArgMin(Diffs(q))],
         ps[Extrema.ArgMax(Diffs(q))], ps[Extrema.ArgMax(Sums(q))])
  }

  /** Every listed point is a corner of the rectangle and every corner is listed. */
  predicate ListsCorners(q: Quad, left: int, top: int, right: int, bottom: int) {
    var corners := {Point(left, top), Point(right, top), Point(left, bottom), Point(right, bottom)};
    && (forall i :: 0 <= i < 4 ==> Points(q)[i] in corners)
    && (forall c :: c in corners ==> c in Points(q))
  }

  /** A point of least sum is the top-left corner. */
  lemma LeastSumIsTopLeft(q: Quad, left: int, top: int, right: int, bottom: int, p: Point)
    requires left < right && top < bottom
    requires ListsCorners(q, left, top, right, bottom)
    requires p in Points(q)
    requires forall i :: 0 <= i < 4 ==> Sum(p) <= Sum(Points(q)[i])
    ensures p == Point(left, top)
  {
    var i :| 0 <= i < 4 && Points(q)[i] == Point(left, top);
    assert Sum(p) <= Sum(Points(q)[i]);
  }

  /** A point of greatest sum is the bottom-right corner. */
  lemma GreatestSumIsBottomRight(q: Quad, left: int, top: int, right: int, bottom: int, p: Point)
    requires left < right && top < bottom
    requires ListsCorners(q, left, top, right, bottom)
    requires p in Points(q)
    requires forall i :: 0 <= i < 4 ==> Sum(Points(q)[i]) <= Sum(p)
    ensures p == Point(right, bottom)
  {
    var i :| 0 <= i < 4 && Points(q)[i] == Point(right, bottom);
    assert Sum(Points(q)[i]) <= Sum(p);
  }

  /** A point of least difference is the top-right corner. */
  lemma LeastDiffIsTopRight(q: Quad, left: int, top: int, right: int, bottom: int, p: Point)
    requires left < right && top < bottom
    requires ListsCorners(q, left, top, right, bottom)
    requires p in Points(q)
    requires forall i :: 0 <= i < 4 ==> Diff(p) <= Diff(Points(q)[i])
    ensures p == Point(right, top)
  {
    var i :| 0 <= i < 4 && Points(q)[i] == Point(right, top);
    assert Diff(p) <= Diff(Points(q)[i]);
  }

  /** A point of greatest difference is the bottom-left corner. */
  lemma GreatestDiffIsBottomLeft(q: Quad, left: int, top: int, right: int, bottom: int, p: Point)
    requires left < right && top < bottom
    requires ListsCorners(q, left, top, right, bottom)
    requires p in Points(q)
    requires forall i :: 0 <= i < 4 ==> Diff(Points(q)[i]) <= Diff(p)
    ensures p == Point(left, bottom)
  {
    var i :| 0 <= i < 4 && Points(q)[i] == Point(left, bottom);
    assert Diff(Points(q)[i]) <= Diff(p);
  }

  /** The four corners of an axis-parallel rectangle, listed in any order,
      come out as top-left, top-right, bottom-left, bottom-right. */
  lemma ReOrderRectangle(q: Quad, left: int, top: int, right: int, bottom: int)
    requires left < right && top < bottom
    requires ListsCorners(q, left, top, right, bottom)
    ensures ReOrder(q) == Quad(Point(left, top), Point(right, top), Point(left, bottom), Point(right, bottom))
  {
    var r := ReOrder(q);
    var i0 :| Extrema.IsFirstMin(Sums(q), i0) && r.p0 == Points(q)[i0];
    LeastSumIsTopLeft(q, left, top, right, bottom, r.p0);
    var i1 :| Extrema.IsFirstMin(Diffs(q), i1) && r.p1 == Points(q)[i1];
    LeastDiffIsTopRight(q, left, top, right, bottom, r.p1);
    var i2 :| Extrema.IsFirstMax(Diffs(q), i2) && r.p2 == Points(q)[i2];
    GreatestDiffIsBottomLeft(q, left, top, right, bottom, r.p2);
    var i3 :| Extrema.IsFirstMax(Sums(q), i3) && r.p3 == Points(q)[i3];
    GreatestSumIsBottomRight(q, left, top, right, bottom, r.p3);
  }

  /** The corner names warp_perspective gives to the four points it is handed:
      top-left, top-right, bottom-right, bottom-left. */
  datatype Named = Named(topLeft: Point, topRight: Point, bottomRight: Point, bottomLeft: Point)

  function RectifierNames(q: Quad): Named {
    Named(q.p0, q.p1, q.p2, q.p3)
  }

  /** The two corner conventions disagree: handed the sorted corners of a
      rectangle, the rectifier would take the bottom-left corner for its
      bottom-right one and the bottom-right corner for its bottom-left one. */
  lemma SortedCornersSwapBottom(q: Quad, left: int, top: int, right: int, bottom: int)
    requires left < right && top < bottom
    requires ListsCorners(q, left, top, right, bottom)
    ensures RectifierNames(ReOrder(q)).bottomRight == Point(left, bottom)
    ensures RectifierNames(ReOrder(q)).bottomLeft == Point(right, bottom)
  {
    ReOrderRectangle(q, left, top, right, bottom);
  }

  /** Without a rectangle one point can fill two slots while another is
      dropped: when the point of least sum also has the least difference, it
      is both the first and the second output, and a point that is extreme in
      neither measure is lost. The points (0, 0), (1, 5), (5, 6), (6, 7) are
      such a case. */
  lemma ReOrderMayRepeat(q: Quad)
    requires Sum(q.p0) < Sum(q.p1) < Sum(q.p2) < Sum(q.p3)
    requires Diff(q.p0) < Diff(q.p2) <= Diff(q.p3) < Diff(q.p1)
    ensures ReOrder(q) == Quad(q.p0, q.p0, q.p1, q.p3)
    ensures q.p2 !in Points(ReOrder(q))
  {
    var sums, diffs := Sums(q), Diffs(q);
    assert Extrema.IsFirstMin(sums, 0);
    Extrema.FirstMinUnique(sums, 0);
    assert Extrema.IsFirstMin(diffs, 0);
    Extrema.FirstMinUnique(diffs, 0);
    assert Extrema.IsFirstMax(diffs, 1);
    Extrema.FirstMaxUnique(diffs, 1);
    assert Extrema.IsFirstMax(sums, 3);
    Extrema.FirstMaxUnique(sums, 3);
  }

  /** Four points no two of which are equal. */
  predicate Distinct(q: Quad) {
    && q.p0 != q.p1 && q.p0 != q.p2 && q.p0 != q.p3
    && q.p1 != q.p2 && q.p1 != q.p3 && q.p2 != q.p3
  }

  /** Of four distinct points, a point listed at one index only is at no other. */
  lemma DistinctIndices(q: Quad, a: int, b: int)
    requires Distinct(q) && 0 <= a < 4 && 0 <= b < 4 && a != b
    ensures Points(q)[a] != Points(q)[b]
  {
  }

  /** An index in 0..3 distinct from three given ones. */
  function OtherIndex(a: int, b: int, c: int): (j: int)
    ensures 0 <= j < 4 && j != a && j != b && j != c
  {
    if 0 != a && 0 != b && 0 != c then 0
    else if 1 != a && 1 != b && 1 != c then 1
    else if 2 != a && 2 != b && 2 != c then 2
    else 3
  }

  /** Three slots filled from the points at indices a, b and c leave a point
      of four distinct ones out. */
  lemma ThreeSlotsMissPoint(q: Quad, a: int, b: int, c: int)
    requires Distinct(q) && 0 <= a < 4 && 0 <= b < 4 && 0 <= c < 4
    ensures exists j :: 0 <= j < 4 && Points(q)[j] !in [Points(q)[a], Points(q)[a], Points(q)[b], Points(q)[c]]
  {
    var j := OtherIndex(a, b, c);
    DistinctIndices(q, j, a);
    DistinctIndices(q, j, b);
    DistinctIndices(q, j, c);
    assert Points(q)[j] !in [Points(q)[a], Points(q)[a], Points(q)[b], Points(q)[c]];
  }

  /** Four distinct points whose first point of least sum is also their first
      point of least difference: that point fills the first two slots, so one
      of the points is missing from the output. */
  lemma SharedCornerDropsPoint(q: Quad, i: int)
    requires Distinct(q)
    requires Extrema.IsFirstMin(Sums(q), i) && Extrema.IsFirstMin(Diffs(q), i)
    ensures ReOrder(q).p0 == ReOrder(q).p1 == Points(q)[i]
    ensures exists j :: 0 <= j < 4 && Points(q)[j] !in Points(ReOrder(q))
  {
    var ps := Points(q);
    Extrema.FirstMinUnique(Sums(q), i);
    Extrema.FirstMinUnique(Diffs(q), i);
    var i2, i3 := Extrema.ArgMax(Diffs(q)), Extrema.ArgMax(Sums(q));
    assert ReOrder(q) == Quad(ps[i], ps[i], ps[i2], ps[i3]);
    ThreeSlotsMissPoint(q, i, i2, i3);
  }
}

=== FILE: extrema.dfy ===
/** First-occurrence extrema of a non-empty integer sequence, as computed by
    numpy's `argmax` and `argmin`: the lowest index holding the extreme value. */
module Extrema {

  /** `k` holds the maximum of `s`, and every earlier index holds strictly less. */
  ghost predicate IsFirstMax(s: seq<int>, k: int) {
    && 0 <= k < |s|
    && (forall j :: 0 <= j < |s| ==> s[j] <= s[k])
    && (forall j :: 0 <= j < k ==> s[j] < s[k])
  }

  /** `k` holds the minimum of `s`, and every earlier index holds strictly more. */
  ghost predicate IsFirstMin(s: seq<int>, k: int) {
    && 0 <= k < |s|
    && (forall j :: 0 <= j < |s| ==> s[k] <= s[j])
    && (forall j :: 0 <= j < k ==> s[k] < s[j])
  }

  /** numpy.argmax on a one-dimensional array: scans left to right and keeps
      the first index of a strictly larger value. */
  function ArgMax(s: seq<int>): (k: nat)
    requires |s| > 0
    ensures IsFirstMax(s, k)
  {
    if |s| == 1 then 0
    else
      var k := ArgMax(s[..|s| - 1]);
      if s[|s| - 1] > s[k] then |s| - 1 else k
  }

  /** numpy.argmin on a one-dimensional array. */
  function ArgMin(s: seq<int>): (k: nat)
    requires |s| > 0
    ensures IsFirstMin(s, k)
  {
    if |s| == 1 then 0
    else
      var k := ArgMin(s[..|s| - 1]);
      if s[|s| - 1] < s[k] then |s| - 1 else k
  }

  /** The first maximum is unique, so any index with the property is the one
      ArgMax returns. */
  lemma FirstMaxUnique(s: seq<int>, k: int)
    requires |s| > 0
    requires IsFirstMax(s, k)
    ensures k == ArgMax(s)
  {
  }

  /** Likewise for the first minimum. */
  lemma FirstMinUnique(s: seq<int>, k: int)
    requires |s| > 0
    requires IsFirstMin(s, k)
    ensures k == ArgMin(s)
  {
  }
}

=== FILE: grader.dfy ===
/** Grading (grade): one verdict per detected answer, in input order, and
    the total of correct verdicts.

    The condition tags "-" and "Any" accept a detected option that is one of
    the accepted answers. Every other tag, "All" included, accepts only when
    the set of accepted answers is exactly the detected option. A detected
    question missing from the scheme aborts grading of the whole sheet. */
module Grader {
  import opened Wrappers
  import opened Scheme

  /** One detected answer: question number and option. */
  datatype Detected = Detected(qNo: int, option: int)

  /** One graded record: `{'Question': q_no, 'Correct': is_correct}`. */
  datatype Verdict = Verdict(question: int, correct: bool)

  /** The KeyError of `marking_scheme[q_no]`. */
  datatype GradeError = UnknownQuestion(qNo: int)

  /** The tags graded by membership. */
  predicate IsMembershipTag(condition: string) {
    condition == "-" || condition == "Any"
  }

  /** The set of accepted answers is the single detected option exactly when
      the list is non-empty and every accepted answer equals it. */
  lemma SingletonAnswers(answers: seq<int>, detected: int)
    ensures (set a | a in answers) == {detected} <==>
              |answers| > 0 && forall i :: 0 <= i < |answers| ==> answers[i] == detected
  {
    var accepted := set a | a in answers;
    if |answers| > 0 && forall i :: 0 <= i < |answers| ==> answers[i] == detected {
      assert answers[0] in accepted;
      assert accepted == {detected};
    }
    if accepted == {detected} {
      assert detected in accepted;
      forall i | 0 <= i < |answers|
        ensures answers[i] == detected
      {
        assert answers[i] in accepted;
      }
    }
  }

  /** The verdict rule shared by grade and annotate_image: membership under
      "-" and "Any", otherwise the accepted answers must all be the detected
      option. */
  function IsCorrect(entry: Entry, detected: int): (correct: bool)
    ensures IsMembershipTag(entry.condition) ==>
              (correct <==> exists i :: 0 <= i < |entry.answers| && entry.answers[i] == detected)
    ensures !IsMembershipTag(entry.condition) ==>
              (correct <==> |entry.answers| > 0 && forall i :: 0 <= i < |entry.answers| ==> entry.answers[i] == detected)
  {
    SingletonAnswers(entry.answers, detected);
    if IsMembershipTag(entry.condition) then detected in entry.answers
    else (set a | a in entry.answers) == {detected}
  }

  /** Under "-" and "Any", the detected option is correct exactly when some
      accepted answer equals it. */
  lemma MembershipRule(entry: Entry, detected: int)
    requires IsMembershipTag(entry.condition)
    ensures IsCorrect(entry, detected) <==> exists i :: 0 <= i < |entry.answers| && entry.answers[i] == detected
  {
  }

  /** Under any other tag, the detected option is correct exactly when the
      answer list is non-empty and every accepted answer equals it. */
  lemma ExactRule(entry: Entry, detected: int)
    requires !IsMembershipTag(entry.condition)
    ensures IsCorrect(entry, detected) <==>
              |entry.answers| > 0 && forall i :: 0 <= i < |entry.answers| ==> entry.answers[i] == detected
  {
  }

  /** A single detected option can never satisfy a non-membership tag ("All")
      over two different accepted answers. */
  lemma AllWithTwoAnswersNeverCorrect(entry: Entry, detected: int, i: nat, j: nat)
    requires !IsMembershipTag(entry.condition)
    requires i < |entry.answers| && j < |entry.answers|
    requires entry.answers[i] != entry.answers[j]
    ensures !IsCorrect(entry, detected)
  {
    ExactRule(entry, detected);
  }

  /** grade: the verdicts of the detected answers in order, or the first
      detected question the scheme lacks. */
  function Grade(detected: seq<Detected>, scheme: MarkingScheme): (r: Result<seq<Verdict>, GradeError>)
    ensures r.Success? <==> forall i :: 0 <= i < |detected| ==> detected[i].qNo in scheme
    ensures r.Success? ==>
              && |r.value| == |detected|
              && forall i :: 0 <= i < |detected| ==>
                   r.value[i] == Verdict(detected[i].qNo, IsCorrect(scheme[detected[i].qNo], detected[i].option))
    ensures r.Failure? ==>
              exists i :: && 0 <= i < |detected| && detected[i].qNo == r.error.qNo && r.error.qNo !in scheme
                          && forall j :: 0 <= j < i ==> detected[j].qNo in scheme
  {
    if |detected| == 0 then Success([])
    else
      var d := detected[0];
      if d.qNo !in scheme then Failure(UnknownQuestion(d.qNo))
      else
        var rest := Grade(detected[1..], scheme);
        assert forall i :: 1 <= i < |detected| ==> detected[1..][i - 1] == detected[i];
        if rest.Failure? then
          rest
        else
          Success([Verdict(d.qNo, IsCorrect(scheme[d.qNo], d.option))] + rest.value)
  }

  /** Grading fails on the first detected question the scheme lacks. */
  lemma FirstUnknownQuestion(detected: seq<Detected>, scheme: MarkingScheme, k: nat)
    requires k < |detected| && detected[k].qNo !in scheme
    requires forall j :: 0 <= j < k ==> detected[j].qNo in scheme
    ensures Grade(detected, scheme) == Failure(UnknownQuestion(detected[k].qNo))
  {
  }

  /** The number of correct verdicts. */
  function Score(verdicts: seq<Verdict>): (total: nat)
    ensures total <= |verdicts|
  {
    if |verdicts| == 0 then 0
    else Score(verdicts[..|verdicts| - 1]) + (if verdicts[|verdicts| - 1].correct then 1 else 0)
  }

  /** The score is the full count exactly when every verdict is correct, and
      zero exactly when none is. */
  lemma {:induction false} ScoreExtremes(verdicts: seq<Verdict>)
    ensures Score(verdicts) == |verdicts| <==> forall i :: 0 <= i < |verdicts| ==> verdicts[i].correct
    ensures Score(verdicts) == 0 <==> forall i :: 0 <= i < |verdicts| ==> !verdicts[i].correct
  {
    if |verdicts| > 0 {
      var n := |verdicts| - 1;
      ScoreExtremes(verdicts[..n]);
      assert forall i :: 0 <= i < n ==> verdicts[..n][i] == verdicts[i];
    }
  }

  /** The positions of the correct verdicts. */
  function CorrectPositions(verdicts: seq<Verdict>): set<nat> {
    set i: nat | i < |verdicts| && verdicts[i].correct
  }

  /** The score is the number of positions holding a correct verdict. */
  lemma {:induction false} ScoreCountsCorrect(verdicts: seq<Verdict>)
    ensures Score(verdicts) == |CorrectPositions(verdicts)|
  {
    if |verdicts| > 0 {
      var n := |verdicts| - 1;
      ScoreCountsCorrect(verdicts[..n]);
      var before := CorrectPositions(verdicts[..n]);
      assert before == set i: nat | i < n && verdicts[i].correct;
      if verdicts[n].correct {
        assert CorrectPositions(verdicts) == before + {n};
      } else {
        assert CorrectPositions(verdicts) == before;
      }
    }
  }

  /** Scores of consecutive runs of verdicts add up. */
  lemma {:induction false} ScoreAppend(a: seq<Verdict>, b: seq<Verdict>)
    ensures Score(a + b) == Score(a) + Score(b)
    decreases |b|
  {
    if |b| > 0 {
      var n := |b| - 1;
      ScoreAppend(a, b[..n]);
      assert (a + b)[..|a + b| - 1] == a + b[..n];
    } else {
      assert a + b == a;
    }
  }

  /** The loop of grade: verdicts are appended in input order and the running
      `total_marks` counts the correct ones. */
  method GradeSheet(detected: seq<Detected>, scheme: MarkingScheme)
    returns (result: Result<seq<Verdict>, GradeError>, totalMarks: nat)
    ensures result == Grade(detected, scheme)
    ensures result.Success? ==> totalMarks == Score(result.value)
  {
    var verdicts: seq<Verdict> := [];
    totalMarks := 0;
    var k := 0;
    while k < |detected|
      invariant 0 <= k <= |detected|
      invariant forall i :: 0 <= i < k ==> detected[i].qNo in scheme
      invariant |verdicts| == k
      invariant forall i :: 0 <= i < k ==>
        verdicts[i] == Verdict(detected[i].qNo, IsCorrect(scheme[detected[i].qNo], detected[i].option))
      invariant totalMarks == Score(verdicts)
    {
      var d := detected[k];
      if d.qNo !in scheme {
        FirstUnknownQuestion(detected, scheme, k);
        return Failure(UnknownQuestion(d.qNo)), totalMarks;
      }
      var isCorrect := IsCorrect(scheme[d.qNo], d.option);
      if isCorrect {
        totalMarks := totalMarks + 1;
      }
      assert (verdicts + [Verdict(d.qNo, isCorrect)])[..k] == verdicts;
      verdicts := verdicts + [Verdict(d.qNo, isCorrect)];
      k := k + 1;
    }
    var expected := Grade(detected, scheme);
    assert verdicts == expected.value;
    result := Success(verdicts);
  }
}

=== FILE: grid.dfy ===
/** Question-box geometry of a rectified answer sheet.

    The sheet is cut into `cols` bands of width `width / cols` and `rows`
    bands of height `height / rows` (integer division), and the boxes are
    enumerated column by column: every row of column 0 first, then column 1,
    and so on. Boxes are half-open rectangles, the way numpy slices them. */
module Grid {

  /** Default grid of the answer sheet: 5 columns of 10 questions. */
  const NumColumns: nat := 5
  const NumRows: nat := 10

  /** The number of question boxes, and so of questions, on a sheet. */
  const BoxCount: nat := NumColumns * NumRows

  datatype Point = Point(x: int, y: int)

  /** The half-open rectangle [topLeft.x, bottomRight.x) x [topLeft.y, bottomRight.y). */
  datatype Rect = Rect(topLeft: Point, bottomRight: Point) {

    function Width(): int {
      bottomRight.x - topLeft.x
    }

    function Height(): int {
      bottomRight.y - topLeft.y
    }

    predicate Contains(p: Point) {
      topLeft.x <= p.x < bottomRight.x && topLeft.y <= p.y < bottomRight.y
    }
  }

  /** The box in column `col` and row `row` of a grid of `boxWidth` x `boxHeight` boxes. */
  function Cell(boxWidth: nat, boxHeight: nat, col: int, row: int): Rect {
    Rect(Point(col * boxWidth, row * boxHeight), Point((col + 1) * boxWidth, (row + 1) * boxHeight))
  }

  /** The inner loop of the enumeration: every row of one column, top to bottom. */
  function ColumnBoxes(boxWidth: nat, boxHeight: nat, col: int, rows: nat): seq<Rect> {
    seq(rows, i => Cell(boxWidth, boxHeight, col, i))
  }

  /** Multiplication by a non-negative factor is monotone. */
  lemma MulMono(a: int, b: int, d: nat)
    requires a <= b
    ensures a * d <= b * d
  {
  }

  /** The quotient and remainder of integer division are the unique pair with
      k == q * d + r and 0 <= r < d. */
  lemma DivModUnique(k: int, d: int, q: int, r: int)
    requires d > 0 && 0 <= r < d
    requires k == q * d + r
    ensures k / d == q && k % d == r
  {
    var q', r' := k / d, k % d;
    assert k == q' * d + r';
    assert (q + 1) * d == q * d + d;
    assert (q' + 1) * d == q' * d + d;
    if q' > q {
      MulMono(q + 1, q', d);
    } else if q' < q {
      MulMono(q' + 1, q, d);
    }
  }

  /** Splitting a column-major index into its column and row. */
  lemma DivModColumnMajor(col: int, row: int, rows: int)
    requires 0 <= row < rows
    ensures (col * rows + row) / rows == col
    ensures (col * rows + row) % rows == row
  {
    DivModUnique(col * rows + row, rows, col, row);
  }

  /** Whole bands never exceed the length they are cut from. */
  lemma BandsFit(n: nat, d: nat)
    requires d > 0
    ensures d * (n / d) <= n
  {
  }

  /** The outer loop of the enumeration over the first `cols` columns: box k
      is in column k / rows and row k % rows. */
  function BoxesOfColumns(boxWidth: nat, boxHeight: nat, cols: nat, rows: nat): (boxes: seq<Rect>)
    requires rows > 0
    ensures |boxes| == cols * rows
    ensures forall k :: 0 <= k < |boxes| ==> boxes[k] == Cell(boxWidth, boxHeight, k / rows, k % rows)
    decreases cols
  {
    if cols == 0 then []
    else
      var before := BoxesOfColumns(boxWidth, boxHeight, cols - 1, rows);
      var column := ColumnBoxes(boxWidth, boxHeight, cols - 1, rows);
      assert forall k :: |before| <= k < |before| + rows ==>
          k / rows == cols - 1 && k % rows == k - |before| by {
        forall k | |before| <= k < |before| + rows
          ensures k / rows == cols - 1 && k % rows == k - |before|
        {
          DivModColumnMajor(cols - 1, k - |before|, rows);
        }
      }
      before + column
  }

  /** extract_question_boxes: the boxes of an image of the given size. */
  function QuestionBoxes(width: nat, height: nat, cols: nat, rows: nat): (boxes: seq<Rect>)
    requires cols > 0 && rows > 0
    ensures |boxes| == cols * rows
    ensures forall k :: 0 <= k < |boxes| ==> boxes[k] == Cell(width / cols, height / rows, k / rows, k % rows)
  {
    BoxesOfColumns(width / cols, height / rows, cols, rows)
  }

  /** The box of a point: column x / boxWidth, row y / boxHeight, numbered
      column-major. */
  function BoxIndexOf(boxWidth: nat, boxHeight: nat, rows: nat, p: Point): int
    requires boxWidth > 0 && boxHeight > 0
  {
    (p.x / boxWidth) * rows + p.y / boxHeight
  }

  /** Integer division recovers the band of a coordinate. */
  lemma DivBand(v: int, size: nat, band: int)
    requires size > 0
    requires band * size <= v < (band + 1) * size
    ensures v / size == band
  {
    assert (band + 1) * size == band * size + size;
    DivModUnique(v, size, band, v - band * size);
  }

  /** Whether a coordinate falls short of band n is decided by its band index. */
  lemma BandBelow(v: int, size: nat, n: int)
    requires size > 0 && v >= 0
    ensures v < n * size <==> v / size < n
  {
    var q := v / size;
    assert q * size <= v < q * size + size;
    if q < n {
      MulMono(q + 1, n, size);
      assert (q + 1) * size == q * size + size;
    } else {
      MulMono(n, q, size);
    }
  }

  /** A point lies in a cell exactly when its coordinates fall in the cell's
      column and row bands; empty cells contain nothing. */
  lemma CellContains(boxWidth: nat, boxHeight: nat, col: nat, row: nat, p: Point)
    ensures Cell(boxWidth, boxHeight, col, row).Contains(p) <==>
      && boxWidth > 0 && boxHeight > 0
      && p.x >= 0 && p.y >= 0
      && p.x / boxWidth == col && p.y / boxHeight == row
  {
    var c := Cell(boxWidth, boxHeight, col, row);
    assert (col + 1) * boxWidth == col * boxWidth + boxWidth;
    assert (row + 1) * boxHeight == row * boxHeight + boxHeight;
    if c.Contains(p) {
      DivBand(p.x, boxWidth, col);
      DivBand(p.y, boxHeight, row);
    }
    if boxWidth > 0 && boxHeight > 0 && p.x >= 0 && p.y >= 0
       && p.x / boxWidth == col && p.y / boxHeight == row {
      assert col * boxWidth <= p.x < col * boxWidth + boxWidth;
      assert row * boxHeight <= p.y < row * boxHeight + boxHeight;
    }
  }

  /** The column of a valid column-major index is a valid column. */
  lemma ColumnInRange(k: nat, cols: nat, rows: nat)
    requires rows > 0 && k < cols * rows
    ensures k / rows < cols
  {
    BandBelow(k, rows, cols);
  }

  /** Box k of the enumeration: its column and row bands. */
  lemma BoxAt(width: nat, height: nat, cols: nat, rows: nat, k: nat)
    requires cols > 0 && rows > 0 && k < cols * rows
    ensures k / rows < cols && k % rows < rows
    ensures QuestionBoxes(width, height, cols, rows)[k] == Cell(width / cols, height / rows, k / rows, k % rows)
  {
    ColumnInRange(k, cols, rows);
  }

  /** A cell in a valid column and row has the band size and lies inside the image. */
  lemma CellInsideImage(width: nat, height: nat, cols: nat, rows: nat, col: nat, row: nat)
    requires cols > 0 && rows > 0 && col < cols && row < rows
    ensures var b := Cell(width / cols, height / rows, col, row);
      && b.Width() == width / cols && b.Height() == height / rows
      && 0 <= b.topLeft.x && b.bottomRight.x <= width
      && 0 <= b.topLeft.y && b.bottomRight.y <= height
  {
    var bw, bh := width / cols, height / rows;
    BandsFit(width, cols);
    BandsFit(height, rows);
    assert (col + 1) * bw == col * bw + bw;
    assert (row + 1) * bh == row * bh + bh;
    MulMono(col + 1, cols, bw);
    MulMono(row + 1, rows, bh);
  }

  /** Every box has the band size and lies inside the image. */
  lemma BoxesInsideImage(width: nat, height: nat, cols: nat, rows: nat)
    requires cols > 0 && rows > 0
    ensures forall k :: 0 <= k < |QuestionBoxes(width, height, cols, rows)| ==>
      var b := QuestionBoxes(width, height, cols, rows)[k];
      && b.Width() == width / cols && b.Height() == height / rows
      && 0 <= b.topLeft.x && b.bottomRight.x <= width
      && 0 <= b.topLeft.y && b.bottomRight.y <= height
  {
    var boxes := QuestionBoxes(width, height, cols, rows);
    forall k | 0 <= k < |boxes|
      ensures && boxes[k].Width() == width / cols && boxes[k].Height() == height / rows
              && 0 <= boxes[k].topLeft.x && boxes[k].bottomRight.x <= width
              && 0 <= boxes[k].topLeft.y && boxes[k].bottomRight.y <= height
    {
      BoxAt(width, height, cols, rows, k);
      CellInsideImage(width, height, cols, rows, k / rows, k % rows);
    }
  }

  /** Membership in a cell of a valid column and row, stated by the cell's
      column-major index. */
  lemma CellMembership(bw: nat, bh: nat, cols: nat, rows: nat, col: nat, row: nat, p: Point)
    requires col < cols && row < rows
    ensures Cell(bw, bh, col, row).Contains(p) <==>
      && bw > 0 && bh > 0
      && 0 <= p.x < cols * bw && 0 <= p.y < rows * bh
      && col * rows + row == BoxIndexOf(bw, bh, rows, p)
  {
    CellContains(bw, bh, col, row, p);
    if bw > 0 && bh > 0 && p.x >= 0 && p.y >= 0 {
      BandBelow(p.x, bw, cols);
      BandBelow(p.y, bh, rows);
      DivModColumnMajor(col, row, rows);
      if p.y / bh < rows {
        DivModColumnMajor(p.x / bw, p.y / bh, rows);
      }
    }
  }

  /** A point is in box k exactly when k is the column-major index of the
      point's bands; in particular no point is in two boxes. */
  lemma BoxMembership(width: nat, height: nat, cols: nat, rows: nat, k: nat, p: Point)
    requires cols > 0 && rows > 0
    requires k < cols * rows
    ensures QuestionBoxes(width, height, cols, rows)[k].Contains(p) <==>
      && width / cols > 0 && height / rows > 0
      && 0 <= p.x < cols * (width / cols) && 0 <= p.y < rows * (height / rows)
      && k == BoxIndexOf(width / cols, height / rows, rows, p)
  {
    BoxAt(width, height, cols, rows, k);
    assert k == (k / rows) * rows + k % rows;
    CellMembership(width / cols, height / rows, cols, rows, k / rows, k % rows, p);
  }

  /** Boxes are pairwise disjoint. */
  lemma BoxesDisjoint(width: nat, height: nat, cols: nat, rows: nat, k: nat, l: nat, p: Point)
    requires cols > 0 && rows > 0
    requires k < cols * rows && l < cols * rows && k != l
    ensures !(QuestionBoxes(width, height, cols, rows)[k].Contains(p)
              && QuestionBoxes(width, height, cols, rows)[l].Contains(p))
  {
    BoxMembership(width, height, cols, rows, k, p);
    BoxMembership(width, height, cols, rows, l, p);
  }

  /** Column-major indices of valid (column, row) pairs are valid indices. */
  lemma IndexBound(col: int, row: int, cols: nat, rows: nat)
    requires 0 <= col < cols && 0 <= row < rows
    ensures 0 <= col * rows + row < cols * rows
  {
    MulMono(col, cols - 1, rows);
    assert (cols - 1) * rows == cols * rows - rows;
  }

  /** A point of the covered region has a valid box index. */
  lemma BoxIndexInRange(bw: nat, bh: nat, cols: nat, rows: nat, p: Point)
    requires bw > 0 && bh > 0 && cols > 0 && rows > 0
    requires 0 <= p.x < cols * bw && 0 <= p.y < rows * bh
    ensures 0 <= BoxIndexOf(bw, bh, rows, p) < cols * rows
  {
    BandBelow(p.x, bw, cols);
    BandBelow(p.y, bh, rows);
    IndexBound(p.x / bw, p.y / bh, cols, rows);
  }

  /** Together the boxes cover exactly [0, cols * boxWidth) x [0, rows * boxHeight):
      the remainder strips on the right and at the bottom belong to no box. */
  lemma BoxesCover(width: nat, height: nat, cols: nat, rows: nat, p: Point)
    requires cols > 0 && rows > 0
    ensures (exists k :: 0 <= k < cols * rows && QuestionBoxes(width, height, cols, rows)[k].Contains(p))
      <==> 0 <= p.x < cols * (width / cols) && 0 <= p.y < rows * (height / rows)
  {
    var bw, bh := width / cols, height / rows;
    if 0 <= p.x < cols * bw && 0 <= p.y < rows * bh {
      BoxIndexInRange(bw, bh, cols, rows, p);
      BoxMembership(width, height, cols, rows, BoxIndexOf(bw, bh, rows, p), p);
    }
    if exists k :: 0 <= k < cols * rows && QuestionBoxes(width, height, cols, rows)[k].Contains(p) {
      var k :| 0 <= k < cols * rows && QuestionBoxes(width, height, cols, rows)[k].Contains(p);
      BoxMembership(width, height, cols, rows, k, p);
    }
  }

  /** create_grid: the same band sizes, but a list of rows of cells, each row
      listing its options left to right. */
  function CreateGrid(width: nat, height: nat, numQuestions: nat, numOptions: nat): (grid: seq<seq<Rect>>)
    requires numQuestions > 0 && numOptions > 0
    ensures |grid| == numQuestions
    ensures forall i :: 0 <= i < numQuestions ==> |grid[i]| == numOptions
    ensures forall i, j :: 0 <= i < numQuestions && 0 <= j < numOptions ==>
              && grid[i][j].topLeft == Point(j * (width / numOptions), i * (height / numQuestions))
              && grid[i][j].Width() == width / numOptions
              && grid[i][j].Height() == height / numQuestions
  {
    var cellHeight, cellWidth := height / numQuestions, width / numOptions;
    seq(numQuestions, i => seq(numOptions, j => Cell(cellWidth, cellHeight, j, i)))
  }

  /** create_grid is the row-major view of the column-major question boxes:
      its cell (i, j) is question box j * rows + i. */
  lemma GridAgreesWithBoxes(width: nat, height: nat, cols: nat, rows: nat, i: nat, j: nat)
    requires cols > 0 && rows > 0
    requires i < rows && j < cols
    ensures j * rows + i < |QuestionBoxes(width, height, cols, rows)|
    ensures CreateGrid(width, height, rows, cols)[i][j] == QuestionBoxes(width, height, cols, rows)[j * rows + i]
  {
    DivModColumnMajor(j, i, rows);
    MulMono(j + 1, cols, rows);
    assert (j + 1) * rows == j * rows + rows;
  }
}

=== FILE: raster.dfy ===
/** Grayscale raster images: the rectified sheet and its question boxes.

    An image is `height` rows of `width` 8-bit intensities. Cropping follows
    numpy slicing `image[y0:y1, x0:x1]` for non-negative bounds, including
    its clamping of bounds past the edge. */
module Raster {
  import opened Grid

  /** An 8-bit grayscale intensity. */
  type Byte = b: int | 0 <= b < 256

  datatype Image = Image(height: nat, width: nat, px: seq<seq<Byte>>)

  /** `px` holds exactly `height` rows of exactly `width` pixels. */
  predicate WellFormed(img: Image) {
    && |img.px| == img.height
    && forall r :: 0 <= r < |img.px| ==> |img.px[r]| == img.width
  }

  /** At least one pixel: OpenCV's colour conversion rejects an empty image. */
  predicate NonEmpty(img: Image) {
    img.height > 0 && img.width > 0
  }

  /** numpy's effective slice bound: a non-negative bound past the end stops at the end. */
  function Clamp(bound: nat, size: nat): (c: nat)
    ensures c <= size
    ensures c <= bound
    ensures c == bound || c == size
  {
    if bound < size then bound else size
  }

  /** A box whose corners are both non-negative. */
  predicate NonNegative(box: Rect) {
    && box.topLeft.x >= 0 && box.topLeft.y >= 0
    && box.bottomRight.x >= 0 && box.bottomRight.y >= 0
  }

  /** `image[y0:y1, x0:x1]`: rows y0..y1 and columns x0..x1, clamped to the
      image; an inverted range is empty. */
  function Crop(img: Image, box: Rect): (c: Image)
    requires WellFormed(img)
    requires NonNegative(box)
    ensures WellFormed(c)
    ensures c.height <= img.height && c.width <= img.width
    ensures forall r, col :: 0 <= r < c.height && 0 <= col < c.width ==>
      && box.topLeft.y + r < img.height && box.topLeft.x + col < img.width
      && c.px[r][col] == img.px[box.topLeft.y + r][box.topLeft.x + col]
  {
    var y0 := Clamp(box.topLeft.y, img.height);
    var y1 := Clamp(box.bottomRight.y, img.height);
    var x0 := Clamp(box.topLeft.x, img.width);
    var x1 := Clamp(box.bottomRight.x, img.width);
    var h := if y0 <= y1 then y1 - y0 else 0;
    var w := if x0 <= x1 then x1 - x0 else 0;
    Image(h, w, seq(h, r requires 0 <= r < h => img.px[y0 + r][x0..x0 + w]))
  }

  /** A box inside the image is cut out at exactly its own size. */
  lemma CropInsideBox(img: Image, box: Rect)
    requires WellFormed(img)
    requires NonNegative(box)
    requires box.topLeft.x <= box.bottomRight.x <= img.width
    requires box.topLeft.y <= box.bottomRight.y <= img.height
    ensures Crop(img, box).width == box.Width()
    ensures Crop(img, box).height == box.Height()
  {
  }

  /** cv2.rotate with ROTATE_90_CLOCKWISE: the left column, read bottom to
      top, becomes the top row. */
  function RotateClockwise(img: Image): (r: Image)
    requires WellFormed(img)
    ensures WellFormed(r)
    ensures r.height == img.width && r.width == img.height
    ensures forall row, col :: 0 <= row < r.height && 0 <= col < r.width ==>
              r.px[row][col] == img.px[img.height - 1 - col][row]
  {
    Image(img.width, img.height,
      seq(img.width, row requires 0 <= row < img.width =>
        seq(img.height, col requires 0 <= col < img.height => img.px[img.height - 1 - col][row])))
  }

  /** cv2.flip with flip code 1: mirror each row left to right. */
  function FlipHorizontal(img: Image): (f: Image)
    requires WellFormed(img)
    ensures WellFormed(f)
    ensures f.height == img.height && f.width == img.width
    ensures forall row, col :: 0 <= row < f.height && 0 <= col < f.width ==>
              f.px[row][col] == img.px[row][img.width - 1 - col]
  {
    Image(img.height, img.width,
      seq(img.height, row requires 0 <= row < img.height =>
        seq(img.width, col requires 0 <= col < img.width => img.px[row][img.width - 1 - col])))
  }

  /** The matrix transpose: pixel (r, c) of the result is pixel (c, r) of the input. */
  function Transpose(img: Image): (t: Image)
    requires WellFormed(img)
    ensures WellFormed(t)
  {
    Image(img.width, img.height,
      seq(img.width, row requires 0 <= row < img.width =>
        seq(img.height, col requires 0 <= col < img.height => img.px[col][row])))
  }

  /** The final reorientation of the rectifier, a clockwise quarter turn followed
      by a horizontal mirror, is a transpose: the sheet's
      width and height swap and pixel (r, c) moves to (c, r). */
  lemma {:induction false} ReorientIsTranspose(img: Image)
    requires WellFormed(img)
    ensures FlipHorizontal(RotateClockwise(img)) == Transpose(img)
  {
    var f, t := FlipHorizontal(RotateClockwise(img)), Transpose(img);
    forall row | 0 <= row < img.width
      ensures f.px[row] == t.px[row]
    {
      forall col | 0 <= col < img.height
        ensures f.px[row][col] == t.px[row][col]
      {
        assert f.px[row][col] == RotateClockwise(img).px[row][img.height - 1 - col];
      }
    }
  }

  /** Mirroring twice gives back the image. */
  lemma FlipInvolution(img: Image)
    requires WellFormed(img)
    ensures FlipHorizontal(FlipHorizontal(img)) == img
  {
    var f := FlipHorizontal(FlipHorizontal(img));
    forall row | 0 <= row < img.height
      ensures f.px[row] == img.px[row]
    {
    }
  }

  /** Transposing twice gives back the image. */
  lemma TransposeInvolution(img: Image)
    requires WellFormed(img)
    ensures Transpose(Transpose(img)) == img
  {
    var t := Transpose(Transpose(img));
    forall row | 0 <= row < img.height
      ensures t.px[row] == img.px[row]
    {
    }
  }
}

=== FILE: scheme.dfy ===
/** The marking scheme and its loader (load_marking_scheme).

    Each table row carries a question id, a comma-separated list of accepted
    answers and a condition tag, all as text. The question id and every
    answer field go through Python's `int()`; the tag is kept as written.
    Rows become map entries in order, so a later row with the same question
    id replaces an earlier one. The first text `int()` rejects aborts the
    whole load. */
module Scheme {
  import opened Wrappers

  /** One row of the marking-scheme table, columns already separated. */
  datatype Row = Row(questionId: string, answerId: string, condition: string)

  /** The accepted answers of a question, in table order, and its condition tag. */
  datatype Entry = Entry(answers: seq<int>, condition: string)

  type MarkingScheme = map<int, Entry>

  /** `int()` rejected the text `text` while reading row `row` (0-based). */
  datatype SchemeError = InvalidInteger(row: nat, text: string)

  // ---------------------------------------------------------------------
  // int() on decimal text

  /** The ASCII whitespace `int()` strips from both ends. */
  predicate IsSpace(c: char) {
    c == ' ' || c == '\t' || c == '\n' || c == '\r' || c == '\U{B}' || c == '\U{C}'
  }

  predicate AllSpaces(s: string) {
    forall i :: 0 <= i < |s| ==> IsSpace(s[i])
  }

  /** `s` without the whitespace `int()` skips at its start. */
  function TrimStart(s: string): string {
    if |s| > 0 && IsSpace(s[0]) then TrimStart(s[1..]) else s
  }

  /** `s` without the whitespace `int()` skips at its end. */
  function TrimEnd(s: string): string {
    if |s| > 0 && IsSpace(s[|s| - 1]) then TrimEnd(s[..|s| - 1]) else s
  }

  function Strip(s: string): string {
    TrimEnd(TrimStart(s))
  }

  /** An ASCII decimal digit, '0' (code 48) to '9' (code 57). */
  predicate IsDigit(c: char) {
    48 <= c as int <= 57
  }

  /** A non-empty run of decimal digits. */
  predicate IsDigits(s: string) {
    |s| > 0 && forall i :: 0 <= i < |s| ==> IsDigit(s[i])
  }

  function DigitsValue(s: string): nat
    requires forall i :: 0 <= i < |s| ==> IsDigit(s[i])
  {
    if |s| == 0 then 0
    else
      assert IsDigit(s[|s| - 1]);
      DigitsValue(s[..|s| - 1]) * 10 + (s[|s| - 1] as int - 48)
  }

  /** Text made of the digit 0 only (or of nothing). */
  predicate AllZeros(s: string) {
    forall i :: 0 <= i < |s| ==> s[i] == '0'
  }

  /** A digit run denotes zero exactly when all its digits are 0. */
  lemma {:induction false} DigitsZero(s: string)
    requires forall i :: 0 <= i < |s| ==> IsDigit(s[i])
    ensures DigitsValue(s) == 0 <==> AllZeros(s)
  {
    if |s| > 0 {
      var n := |s| - 1;
      DigitsZero(s[..n]);
      if AllZeros(s) {
        assert AllZeros(s[..n]);
      }
      if AllZeros(s[..n]) && s[n] == '0' {
        forall i | 0 <= i < |s|
          ensures s[i] == '0'
        {
          if i < n {
            assert s[..n][i] == '0';
          }
        }
      }
    }
  }

  /** Python's `int(s)` for base-10 text: surrounding whitespace, an optional
      sign, then at least one digit. `None` stands for the ValueError. An
      accepted text denotes a negative number exactly when it carries a minus
      sign before a digit other than 0. */
  function ParseInt(s: string): (r: Option<int>)
    ensures r.Some? ==> |Strip(s)| > 0
    ensures r.Some? ==> (r.value < 0 <==> Strip(s)[0] == '-' && !AllZeros(Strip(s)[1..]))
  {
    var t := Strip(s);
    if |t| > 0 && (t[0] == '-' || t[0] == '+') && IsDigits(t[1..]) then
      var magnitude: int := DigitsValue(t[1..]);
      DigitsZero(t[1..]);
      Some(if t[0] == '-' then -magnitude else magnitude)
    else if IsDigits(t) then Some(DigitsValue(t))
    else None
  }

  function DigitChar(d: nat): char
    requires d < 10
  {
    (48 + d) as char
  }

  /** Decimal digits of a natural number, no leading zeros. */
  function ShowNat(n: nat): (s: string)
    ensures IsDigits(s)
  {
    if n < 10 then [DigitChar(n)] else ShowNat(n / 10) + [DigitChar(n % 10)]
  }

  /** Python's `str()` of an integer. */
  function Show(n: int): string {
    if n < 0 then "-" + ShowNat(-n) else ShowNat(n)
  }

  lemma {:induction false} ShowNatValue(n: nat)
    ensures DigitsValue(ShowNat(n)) == n
  {
    if n >= 10 {
      var s := ShowNat(n);
      ShowNatValue(n / 10);
      assert s[..|s| - 1] == ShowNat(n / 10);
    }
  }

  /** Leading whitespace is dropped up to the first non-space character. */
  lemma {:induction false} TrimStartSpaces(pre: string, t: string)
    requires AllSpaces(pre)
    requires |t| > 0 && !IsSpace(t[0])
    ensures TrimStart(pre + t) == t
  {
    if |pre| > 0 {
      assert (pre + t)[1..] == pre[1..] + t;
      TrimStartSpaces(pre[1..], t);
    } else {
      assert pre + t == t;
    }
  }

  /** Trailing whitespace is dropped back to the last non-space character. */
  lemma {:induction false} TrimEndSpaces(t: string, post: string)
    requires AllSpaces(post)
    requires |t| > 0 && !IsSpace(t[|t| - 1])
    ensures TrimEnd(t + post) == t
  {
    if |post| > 0 {
      var n := |post| - 1;
      assert (t + post)[..|t + post| - 1] == t + post[..n];
      TrimEndSpaces(t, post[..n]);
    } else {
      assert t + post == t;
    }
  }

  /** `int()` reads back what `str()` prints, whatever whitespace surrounds it. */
  lemma ParseShowPadded(pre: string, n: int, post: string)
    requires AllSpaces(pre) && AllSpaces(post)
    ensures ParseInt(pre + Show(n) + post) == Some(n)
  {
    var s := Show(n);
    var digits := ShowNat(if n < 0 then -n else n);
    ShowNatValue(if n < 0 then -n else n);
    assert !IsSpace(s[0]) && !IsSpace(s[|s| - 1]);
    TrimStartSpaces(pre, s + post);
    assert pre + s + post == pre + (s + post);
    TrimEndSpaces(s, post);
    assert Strip(pre + s + post) == s;
    if n < 0 {
      assert s[0] == '-' && s[1..] == digits;
      var magnitude: int := DigitsValue(digits);
      assert ParseInt(pre + s + post) == Some(-magnitude);
    } else {
      assert s == digits && IsDigit(s[0]);
      assert s[0] != '-' && s[0] != '+';
    }
  }

  /** Empty or blank text is not an integer. */
  lemma BlankIsNotInteger(s: string)
    requires AllSpaces(s)
    ensures ParseInt(s) == None
  {
    BlankTrimsToEmpty(s);
  }

  lemma {:induction false} BlankTrimsToEmpty(s: string)
    requires AllSpaces(s)
    ensures TrimStart(s) == []
  {
    if |s| > 0 {
      BlankTrimsToEmpty(s[1..]);
    }
  }

  // ---------------------------------------------------------------------
  // str.split and str.join on a one-character separator

  /** `sep.join(fields)`. */
  function Join(fields: seq<string>, sep: char): string
    requires |fields| > 0
  {
    if |fields| == 1 then fields[0]
    else Join(fields[..|fields| - 1], sep) + [sep] + fields[|fields| - 1]
  }

  /** Joining fields whose last one grows by a character grows the result by it. */
  lemma {:induction false} JoinExtendLast(fields: seq<string>, sep: char, c: char)
    requires |fields| > 0
    ensures Join(fields[..|fields| - 1] + [fields[|fields| - 1] + [c]], sep) == Join(fields, sep) + [c]
  {
    var n := |fields| - 1;
    var grown := fields[..n] + [fields[n] + [c]];
    assert grown[..n] == fields[..n];
  }

  /** `s.split(sep)`: the text between separators, empty fields included;
      the result is never empty. */
  function Split(s: string, sep: char): (fields: seq<string>)
    ensures |fields| > 0
    ensures forall i :: 0 <= i < |fields| ==> sep !in fields[i]
    ensures Join(fields, sep) == s
  {
    if |s| == 0 then [""]
    else
      var before := Split(s[..|s| - 1], sep);
      var c := s[|s| - 1];
      assert s == s[..|s| - 1] + [c];
      if c == sep then
        var fields := before + [""];
        assert fields[..|fields| - 1] == before;
        fields
      else
        JoinExtendLast(before, sep, c);
        before[..|before| - 1] + [before[|before| - 1] + [c]]
  }

  /** One step of Split: the last character either starts a new field or
      extends the last one. */
  lemma SplitStep(s: string, sep: char)
    requires |s| > 0
    ensures var before := Split(s[..|s| - 1], sep);
      Split(s, sep) == if s[|s| - 1] == sep then before + [""]
                       else before[..|before| - 1] + [before[|before| - 1] + [s[|s| - 1]]]
  {
  }

  /** Splitting text that ends in `sep` + w, with w free of separators, ends in field w. */
  lemma {:induction false} SplitLastField(prefix: string, sep: char, w: string)
    requires sep !in w
    ensures Split(prefix + [sep] + w, sep) == Split(prefix, sep) + [w]
    decreases |w|
  {
    var s := prefix + [sep] + w;
    SplitStep(s, sep);
    if |w| == 0 {
      assert s[..|s| - 1] == prefix;
    } else {
      var n := |w| - 1;
      SplitLastField(prefix, sep, w[..n]);
      assert s[..|s| - 1] == prefix + [sep] + w[..n];
      var before := Split(prefix, sep) + [w[..n]];
      assert s[|s| - 1] == w[n] && w[n] != sep;
      assert before[..|before| - 1] == Split(prefix, sep);
      assert w[..n] + [w[n]] == w;
    }
  }

  /** Splitting a join gives back the fields, provided none holds the separator. */
  lemma {:induction false} SplitJoin(fields: seq<string>, sep: char)
    requires |fields| > 0
    requires forall i :: 0 <= i < |fields| ==> sep !in fields[i]
    ensures Split(Join(fields, sep), sep) == fields
  {
    var n := |fields| - 1;
    if n == 0 {
      SplitNoSeparator(fields[0], sep);
    } else {
      SplitJoin(fields[..n], sep);
      SplitLastField(Join(fields[..n], sep), sep, fields[n]);
      assert fields == fields[..n] + [fields[n]];
    }
  }

  /** Text without the separator is a single field. */
  lemma {:induction false} SplitNoSeparator(s: string, sep: char)
    requires sep !in s
    ensures Split(s, sep) == [s]
  {
    if |s| > 0 {
      SplitNoSeparator(s[..|s| - 1], sep);
      assert s == s[..|s| - 1] + [s[|s| - 1]];
    }
  }

  // ---------------------------------------------------------------------
  // Rows and the whole table

  /** `[int(ans) for ans in fields]`: stops at the first field `int()`
      rejects and reports its text. */
  function ParseAnswers(fields: seq<string>): (r: Result<seq<int>, string>)
    ensures r.Success? <==> forall i :: 0 <= i < |fields| ==> ParseInt(fields[i]).Some?
    ensures r.Success? ==>
              && |r.value| == |fields|
              && forall i :: 0 <= i < |fields| ==> ParseInt(fields[i]) == Some(r.value[i])
    ensures r.Failure? ==>
              exists i :: && 0 <= i < |fields| && fields[i] == r.error && ParseInt(fields[i]).None?
                          && forall j :: 0 <= j < i ==> ParseInt(fields[j]).Some?
  {
    if |fields| == 0 then Success([])
    else match ParseInt(fields[0])
      case None => Failure(fields[0])
      case Some(v) =>
        match ParseAnswers(fields[1..])
        case Failure(t) =>
          assert forall i :: 1 <= i < |fields| ==> fields[i] == fields[1..][i - 1];
          Failure(t)
        case Success(vs) =>
          assert forall i :: 1 <= i < |fields| ==> fields[i] == fields[1..][i - 1];
          Success([v] + vs)
  }

  /** One row of the table comprehension: the key `int(Question ID)` first,
      then the answers of `Answer ID` split on commas, with the condition
      kept verbatim. An accepted row always has an answer, because splitting
      never yields zero fields and `int('')` fails. */
  function ParseRow(row: Row, index: nat): (r: Result<(int, Entry), SchemeError>)
    ensures r.Success? ==> |r.value.1.answers| > 0 && r.value.1.condition == row.condition
    ensures r.Failure? ==> r.error.row == index
  {
    match ParseInt(row.questionId)
    case None => Failure(InvalidInteger(index, row.questionId))
    case Some(q) =>
      match ParseAnswers(Split(row.answerId, ','))
      case Failure(t) => Failure(InvalidInteger(index, t))
      case Success(answers) => Success((q, Entry(answers, row.condition)))
  }

  /** A row is accepted exactly when its id and every comma-separated answer
      field are integers; it then maps the id to those integers in order. */
  lemma ParseRowMeaning(row: Row, index: nat)
    ensures ParseRow(row, index).Success? <==>
              && ParseInt(row.questionId).Some?
              && forall f :: f in Split(row.answerId, ',') ==> ParseInt(f).Some?
    ensures ParseRow(row, index).Success? ==>
              var (q, e) := ParseRow(row, index).value;
              && ParseInt(row.questionId) == Some(q)
              && |e.answers| == |Split(row.answerId, ',')|
              && forall i :: 0 <= i < |e.answers| ==> ParseInt(Split(row.answerId, ',')[i]) == Some(e.answers[i])
  {
  }

  /** An empty or blank answer field makes the row fail: `int('')` raises. */
  lemma EmptyAnswerRejected(row: Row, index: nat)
    requires AllSpaces(row.answerId)
    ensures ParseRow(row, index).Failure?
  {
    SplitNoSeparator(row.answerId, ',');
    BlankIsNotInteger(row.answerId);
  }

  /** An outcome of ParseRow. */
  type Parsed = Result<(int, Entry), SchemeError>

  /** The dict comprehension over parsed rows: entries are inserted in row
      order, and the first rejected row aborts. */
  function BuildScheme(parsed: seq<Parsed>): (r: Result<MarkingScheme, SchemeError>)
    ensures r.Success? <==> forall i :: 0 <= i < |parsed| ==> parsed[i].Success?
    ensures r.Failure? ==>
              exists i :: && 0 <= i < |parsed| && parsed[i] == Failure(r.error)
                          && forall j :: 0 <= j < i ==> parsed[j].Success?
  {
    if |parsed| == 0 then Success(map[])
    else
      var n := |parsed| - 1;
      var before := BuildScheme(parsed[..n]);
      assert forall i :: 0 <= i < n ==> parsed[..n][i] == parsed[i];
      if before.Failure? then before
      else match parsed[n]
        case Failure(e) => Failure(e)
        case Success(kv) => Success(before.value[kv.0 := kv.1])
  }

  /** The outcome of parsing every row, in order. */
  function ParseRows(rows: seq<Row>): (parsed: seq<Parsed>)
    ensures |parsed| == |rows|
    ensures forall i :: 0 <= i < |rows| ==> parsed[i] == ParseRow(rows[i], i)
  {
    seq(|rows|, i requires 0 <= i < |rows| => ParseRow(rows[i], i))
  }

  /** load_marking_scheme on already separated rows: it succeeds exactly when
      every row parses, and otherwise reports the first rejected row. */
  function LoadScheme(rows: seq<Row>): (r: Result<MarkingScheme, SchemeError>)
    ensures r.Success? <==> forall i :: 0 <= i < |rows| ==> ParseRow(rows[i], i).Success?
    ensures r.Failure? ==>
              && r.error.row < |rows|
              && ParseRow(rows[r.error.row], r.error.row) == Failure(r.error)
              && forall j :: 0 <= j < r.error.row ==> ParseRow(rows[j], j).Success?
  {
    BuildScheme(ParseRows(rows))
  }

  /** The question id of a row that parses. */
  function Key(rows: seq<Row>, i: nat): int
    requires i < |rows| && ParseRows(rows)[i].Success?
  {
    ParseRows(rows)[i].value.0
  }

  /** The keys of a built scheme are the ids of its rows. */
  lemma {:induction false} BuiltKeys(parsed: seq<Parsed>)
    requires BuildScheme(parsed).Success?
    ensures BuildScheme(parsed).value.Keys == set i | 0 <= i < |parsed| :: parsed[i].value.0
  {
    if |parsed| > 0 {
      var n := |parsed| - 1;
      assert forall i :: 0 <= i < n ==> parsed[..n][i] == parsed[i];
      BuiltKeys(parsed[..n]);
      assert (set i | 0 <= i < |parsed| :: parsed[i].value.0)
          == (set i | 0 <= i < n :: parsed[..n][i].value.0) + {parsed[n].value.0};
    }
  }

  /** A row's entry survives unless a later row has the same id. */
  lemma {:induction false} BuiltLastWins(parsed: seq<Parsed>, i: nat)
    requires BuildScheme(parsed).Success?
    requires i < |parsed|
    requires forall j :: i < j < |parsed| ==> parsed[j].value.0 != parsed[i].value.0
    ensures parsed[i].value.0 in BuildScheme(parsed).value
    ensures BuildScheme(parsed).value[parsed[i].value.0] == parsed[i].value.1
  {
    var n := |parsed| - 1;
    if i < n {
      assert forall j :: 0 <= j < n ==> parsed[..n][j] == parsed[j];
      BuiltLastWins(parsed[..n], i);
    }
  }

  /** Every entry of a built scheme is the entry of one of its rows. */
  lemma {:induction false} BuiltFromRows(parsed: seq<Parsed>)
    requires BuildScheme(parsed).Success?
    ensures forall q :: q in BuildScheme(parsed).value ==>
      exists i :: 0 <= i < |parsed| && parsed[i].value == (q, BuildScheme(parsed).value[q])
  {
    if |parsed| > 0 {
      var n := |parsed| - 1;
      assert forall i :: 0 <= i < n ==> parsed[..n][i] == parsed[i];
      BuiltFromRows(parsed[..n]);
    }
  }

  /** The keys of a loaded scheme are exactly the question ids of its rows. */
  lemma LoadedKeys(rows: seq<Row>)
    requires LoadScheme(rows).Success?
    ensures LoadScheme(rows).value.Keys == set i | 0 <= i < |rows| :: Key(rows, i)
  {
    var parsed := ParseRows(rows);
    BuiltKeys(parsed);
    var A := set i | 0 <= i < |rows| :: Key(rows, i);
    var B := set i | 0 <= i < |parsed| :: parsed[i].value.0;
    assert A == B by {
      forall x | x in A ensures x in B {
        var i :| 0 <= i < |rows| && Key(rows, i) == x;
        assert parsed[i].value.0 == x;
      }
      forall x | x in B ensures x in A {
        var i :| 0 <= i < |parsed| && parsed[i].value.0 == x;
        assert Key(rows, i) == x;
      }
    }
  }

  /** The entry of a question is the one of the last row carrying its id: a
      later row with the same id replaces an earlier one. */
  lemma LastRowWins(rows: seq<Row>, i: nat)
    requires LoadScheme(rows).Success?
    requires i < |rows|
    requires forall j :: i < j < |rows| ==> Key(rows, j) != Key(rows, i)
    ensures Key(rows, i) in LoadScheme(rows).value
    ensures LoadScheme(rows).value[Key(rows, i)] == ParseRows(rows)[i].value.1
  {
    var parsed := ParseRows(rows);
    forall j | i < j < |parsed|
      ensures parsed[j].value.0 != parsed[i].value.0
    {
      assert Key(rows, j) != Key(rows, i);
    }
    BuiltLastWins(parsed, i);
  }

  /** Every loaded entry has at least one accepted answer, and its condition
      is the text of some row with that id, unchecked. */
  lemma LoadedEntries(rows: seq<Row>)
    requires LoadScheme(rows).Success?
    ensures forall q :: q in LoadScheme(rows).value ==>
      && |LoadScheme(rows).value[q].answers| > 0
      && exists i :: 0 <= i < |rows| && Key(rows, i) == q
                    && LoadScheme(rows).value[q].condition == rows[i].condition
  {
    var parsed := ParseRows(rows);
    BuiltFromRows(parsed);
  }
}

=== FILE: sheet.dfy ===
/** The per-sheet pipeline (process_answer_sheet and process_single_sheet).

    The rectifier's perspective warp is an input: either the warped sheet
    image, not yet reoriented, or the reason no sheet could be found. The
    pipeline reorients the sheet, cuts it into the 50 question boxes, reads
    one option per box, numbers the answers 1..50 in box order, grades them,
    totals the correct verdicts and lists the annotations. Any failure on the
    way yields a record that carries only the file name and the error. */
module Sheet {
  import opened Wrappers
  import opened Grid
  import opened Raster
  import opened Bubble
  import opened Scheme
  import opened Grader
  import opened Annotator

  /** The final step of warp_perspective: a clockwise quarter turn, then a
      horizontal mirror. */
  function Reorient(warped: Image): (sheet: Image)
    requires WellFormed(warped)
    ensures WellFormed(sheet)
    ensures sheet.width == warped.height && sheet.height == warped.width
    ensures forall r, c :: 0 <= r < sheet.height && 0 <= c < sheet.width ==> sheet.px[r][c] == warped.px[c][r]
  {
    ReorientIsTranspose(warped);
    FlipHorizontal(RotateClockwise(warped))
  }

  /** A sheet at least 5 pixels wide and 10 tall: every band is non-empty. */
  predicate LargeEnough(sheet: Image) {
    sheet.width >= NumColumns && sheet.height >= NumRows
  }

  /** extract_question_boxes: the box images, column by column, each exactly
      one band wide and one band tall; they hold pixels exactly when the sheet
      is large enough. */
  function ExtractBoxes(sheet: Image): (cells: seq<Image>)
    requires WellFormed(sheet)
    ensures |cells| == BoxCount
    ensures forall k :: 0 <= k < |cells| ==>
              && WellFormed(cells[k])
              && cells[k].width == sheet.width / NumColumns
              && cells[k].height == sheet.height / NumRows
              && (NonEmpty(cells[k]) <==> LargeEnough(sheet))
  {
    var boxes := QuestionBoxes(sheet.width, sheet.height, NumColumns, NumRows);
    BoxesInsideImage(sheet.width, sheet.height, NumColumns, NumRows);
    forall k | 0 <= k < |boxes|
      ensures Crop(sheet, boxes[k]).width == sheet.width / NumColumns
      ensures Crop(sheet, boxes[k]).height == sheet.height / NumRows
    {
      CropInsideBox(sheet, boxes[k]);
    }
    seq(|boxes|, k requires 0 <= k < |boxes| => Crop(sheet, boxes[k]))
  }

  /** Pixel (r, c) of box k is the sheet pixel r rows below and c columns
      right of the top-left corner of column k / 10, row k % 10. */
  lemma BoxPixel(sheet: Image, k: nat, r: nat, c: nat)
    requires WellFormed(sheet)
    requires k < BoxCount
    requires r < sheet.height / NumRows && c < sheet.width / NumColumns
    ensures (k % NumRows) * (sheet.height / NumRows) + r < sheet.height
    ensures (k / NumRows) * (sheet.width / NumColumns) + c < sheet.width
    ensures ExtractBoxes(sheet)[k].px[r][c]
            == sheet.px[(k % NumRows) * (sheet.height / NumRows) + r][(k / NumRows) * (sheet.width / NumColumns) + c]
  {
    BoxAt(sheet.width, sheet.height, NumColumns, NumRows, k);
  }

  /** The detected answers of a reoriented sheet: question k + 1 is the
      option read from box k. */
  function DetectAnswers(sheet: Image): (detected: seq<Detected>)
    requires WellFormed(sheet) && LargeEnough(sheet)
    ensures |detected| == BoxCount
    ensures forall k :: 0 <= k < |detected| ==>
              && detected[k].qNo == k + 1
              && 1 <= detected[k].option <= OptionCount
              && detected[k].option == DetectBubble(ExtractBoxes(sheet)[k])
  {
    var cells := ExtractBoxes(sheet);
    seq(|cells|, k requires 0 <= k < |cells| => Detected(k + 1, DetectBubble(cells[k])))
  }

  /** Why a sheet produced no result. */
  datatype SheetError =
    | Unreadable(reason: string)
    | EmptyQuestionBox
    | Ungradable(cause: GradeError)

  /** The record of one processed sheet. */
  datatype SheetRecord =
    | Graded(fileName: string, totalMarks: nat, verdicts: seq<Verdict>, detected: seq<Detected>, marks: seq<Mark>)
    | Failed(fileName: string, error: SheetError)

  /** Every question number 1..50 has an entry in the scheme. */
  predicate CoversSheet(scheme: MarkingScheme) {
    forall q :: 1 <= q <= BoxCount ==> q in scheme
  }

  /** Answers numbered 1..50 in order, as the pipeline numbers them. */
  predicate NumberedInOrder(detected: seq<Detected>) {
    && |detected| == BoxCount
    && forall k :: 0 <= k < |detected| ==> detected[k].qNo == k + 1
  }

  /** Grading answers numbered 1..50 succeeds exactly when the scheme covers
      every question of the sheet. */
  lemma NumberedGradeSucceeds(detected: seq<Detected>, scheme: MarkingScheme)
    requires NumberedInOrder(detected)
    ensures Grade(detected, scheme).Success? <==> CoversSheet(scheme)
  {
    if CoversSheet(scheme) {
      assert forall i :: 0 <= i < |detected| ==> detected[i].qNo in scheme;
    }
    if Grade(detected, scheme).Success? {
      forall q | 1 <= q <= BoxCount
        ensures q in scheme
      {
        assert detected[q - 1].qNo == q;
      }
    }
  }

  /** Grading answers numbered 1..50 stops at the lowest question number the
      scheme lacks. */
  lemma NumberedGradeFailure(detected: seq<Detected>, scheme: MarkingScheme)
    requires NumberedInOrder(detected)
    requires Grade(detected, scheme).Failure?
    ensures var q := Grade(detected, scheme).error.qNo;
      && 1 <= q <= BoxCount && q !in scheme
      && forall p :: 1 <= p < q ==> p in scheme
  {
    var q := Grade(detected, scheme).error.qNo;
    var i :| && 0 <= i < |detected| && detected[i].qNo == q && q !in scheme
             && forall j :: 0 <= j < i ==> detected[j].qNo in scheme;
    forall p | 1 <= p < q
      ensures p in scheme
    {
      assert detected[p - 1].qNo == p;
    }
  }

  /** Whenever grading succeeds, each mark is green exactly when the verdict
      of the same position is correct. */
  lemma MarksFollowVerdicts(width: nat, height: nat, detected: seq<Detected>, scheme: MarkingScheme)
    requires Grade(detected, scheme).Success?
    ensures var marks, verdicts := Annotate(width, height, detected, scheme), Grade(detected, scheme).value;
      forall k :: 0 <= k < |marks| ==> (marks[k].color == Green <==> verdicts[k].correct)
  {
    forall k | 0 <= k < |Annotate(width, height, detected, scheme)|
      ensures Annotate(width, height, detected, scheme)[k].color == Green
              <==> Grade(detected, scheme).value[k].correct
    {
      AnnotationAgreesWithGrade(width, height, detected, scheme, k);
    }
  }

  /** Verdict k of answers numbered 1..50 judges question k + 1. */
  lemma NumberedVerdicts(detected: seq<Detected>, scheme: MarkingScheme)
    requires NumberedInOrder(detected)
    requires CoversSheet(scheme)
    ensures Grade(detected, scheme).Success?
    ensures forall k :: 0 <= k < BoxCount ==>
              Grade(detected, scheme).value[k] == Verdict(k + 1, IsCorrect(scheme[k + 1], detected[k].option))
  {
    NumberedGradeSucceeds(detected, scheme);
  }

  /** The part of process_single_sheet after detection: grade the answers of
      a width x height sheet, total them and annotate them, or fail on the
      first question the scheme lacks. */
  function GradeAnswers(fileName: string, width: nat, height: nat, detected: seq<Detected>, scheme: MarkingScheme)
    : (rec: SheetRecord)
    requires NumberedInOrder(detected)
    ensures rec.fileName == fileName
    ensures rec.Graded? <==> CoversSheet(scheme)
    ensures rec.Graded? ==>
              && rec.detected == detected && |rec.verdicts| == BoxCount && |rec.marks| == BoxCount
              && rec.totalMarks == Score(rec.verdicts) && rec.totalMarks <= BoxCount
              && forall k :: 0 <= k < BoxCount ==>
                   && rec.verdicts[k] == Verdict(k + 1, IsCorrect(scheme[k + 1], detected[k].option))
                   && (rec.marks[k].color == Green <==> rec.verdicts[k].correct)
    ensures rec.Failed? ==>
              && rec.error.Ungradable? && 1 <= rec.error.cause.qNo <= BoxCount
              && rec.error.cause.qNo !in scheme
              && forall p :: 1 <= p < rec.error.cause.qNo ==> p in scheme
  {
    NumberedGradeSucceeds(detected, scheme);
    match Grade(detected, scheme)
    case Failure(cause) =>
      NumberedGradeFailure(detected, scheme);
      Failed(fileName, Ungradable(cause))
    case Success(verdicts) =>
      var marks := Annotate(width, height, detected, scheme);
      MarksFollowVerdicts(width, height, detected, scheme);
      NumberedVerdicts(detected, scheme);
      Graded(fileName, Score(verdicts), verdicts, detected, marks)
  }

  /** process_single_sheet after decoding and warping: the graded record with
      its total and annotations, or the failure record. The warped image is
      reoriented, so it must be at least 10 pixels wide and 5 tall for its
      question boxes to hold pixels. */
  function ProcessSheet(fileName: string, warped: Result<Image, string>, scheme: MarkingScheme): (rec: SheetRecord)
    requires warped.Success? ==> WellFormed(warped.value)
    ensures rec.fileName == fileName
    ensures warped.Failure? ==> rec == Failed(fileName, Unreadable(warped.error))
    ensures rec.Graded? <==>
              && warped.Success?
              && warped.value.width >= NumRows && warped.value.height >= NumColumns
              && CoversSheet(scheme)
    ensures rec.Graded? ==>
              && rec.detected == DetectAnswers(Reorient(warped.value))
              && |rec.verdicts| == BoxCount && |rec.marks| == BoxCount
              && rec.totalMarks == Score(rec.verdicts)
              && forall k :: 0 <= k < BoxCount ==>
                   && rec.verdicts[k] == Verdict(k + 1, IsCorrect(scheme[k + 1], rec.detected[k].option))
                   && (rec.marks[k].color == Green <==> rec.verdicts[k].correct)
    ensures rec.Failed? && warped.Success? ==>
              (rec.error == EmptyQuestionBox <==> warped.value.width < NumRows || warped.value.height < NumColumns)
    ensures rec.Failed? && warped.Success? ==> rec.error.EmptyQuestionBox? || rec.error.Ungradable?
  {
    match warped
    case Failure(reason) => Failed(fileName, Unreadable(reason))
    case Success(raw) =>
      var sheet := Reorient(raw);
      if !LargeEnough(sheet) then Failed(fileName, EmptyQuestionBox)
      else
        var detected := DetectAnswers(sheet);
        assert NumberedInOrder(detected);
        GradeAnswers(fileName, sheet.width, sheet.height, detected, scheme)
  }

  /** Every pixel of the image is above the threshold. */
  predicate Unmarked(img: Image) {
    forall r, c :: 0 <= r < |img.px| && 0 <= c < |img.px[r]| ==> img.px[r][c] > Threshold
  }

  /** A sheet with no dark pixel is read as option 1 on every question: the
      pipeline has no notion of an unanswered question. */
  lemma UnmarkedSheetReadsAllOnes(warped: Image)
    requires WellFormed(warped) && LargeEnough(Reorient(warped))
    requires Unmarked(warped)
    ensures forall k :: 0 <= k < BoxCount ==> DetectAnswers(Reorient(warped))[k].option == 1
  {
    var sheet := Reorient(warped);
    var cells := ExtractBoxes(sheet);
    forall k | 0 <= k < BoxCount
      ensures DetectBubble(cells[k]) == 1
    {
      var cell := cells[k];
      forall r, c | 0 <= r < cell.height && 0 <= c < cell.width
        ensures cell.px[r][c] > Threshold
      {
        BoxPixel(sheet, k, r, c);
      }
      BlankReadsAsOne(cell);
    }
  }
}

=== FILE: wrappers.dfy ===
/** Failure-carrying return values: the model's stand-in for the exceptions
    the grading pipeline raises (ValueError, KeyError). */
module Wrappers {

  datatype Option<+T> = None | Some(value: T)

  datatype Result<+R, +E> = Success(value: R) | Failure(error: E)
}
